=== FILE: README.md ===
# Calendar core: events, conflicts, alerts and calendar grids

This project models the deterministic core of a React calendar assistant. In
that app, calendar events carry a start and end instant, a category, a
priority (High, Medium, Low or None) and optional contact and alert fields.
The model covers these parts:

- **Overlap**: the strict, half-open overlap test that drives conflict
  detection.
- **Event collection**: the operations of the app shell on the event list.
  - Conflict detection on save, and update-or-append saving.
  - Delete by id, and adding extracted events.
  - Applying an accepted reschedule, and ignoring or cancelling a conflict.
  - Marking an event as notified, merging AI-assigned priorities, and
    cleaning a phone number for an SMS link.
- **Smart alerts**: one cycle of the alert hook, written as a pure step
  function.
  - Inputs: the events, the clock reading, the alert window, the movement
    threshold, the last known position and the outcome of the position
    request.
  - Outputs: the events reported and the new last position.
- **Assistant front end**: the local checks that run before any call to the
  generative-AI service.
  - Empty-input guards, the 7-day window and the deadline filter.
  - The priority ranking that decides which of two conflicting events is
    kept.
- **Calendar grids and views**:
  - The month grid padded to whole Sunday–Saturday weeks.
  - Month, day and year navigation.
  - The year view's mini-month grids and event markers.
  - "Is this event on this day" listing, sorting by start, and the day
    timeline's block placement and hour labels.
  - The month view's drop handler, with the callbacks its props declare,
    and the sidebar's five upcoming events.
- **Small state machines**:
  - Select, toggle, edit and confirm in the review of extracted events.
  - The event editor's load/save and attendee parsing.
  - Updates to the background-image settings.

Modules, one per file:

- **Time and text**
  - `CivilTime`: civil dates and the JavaScript `Date` normalisation the code
    relies on. `new Date(y, m, d)` with an out-of-range month or day rolls
    over, day 0 is the last day of the previous month, and `getDay` gives
    the weekday.
  - `Text`: decimal rendering, ECMAScript whitespace trimming, and
    `split`/`join`.
- **Events**
  - `Types`: the `Priority` enum and the event record.
  - `Interval`: the overlap test.
  - `EventStore`: the event-collection handlers.
  - `EventOrder`: the stable sort by start.
- **Features**
  - `ProximityAlerter`: the smart-alert cycle.
  - `AssistantService`: the assistant's local guards and the ranking.
- **Views**
  - `CalendarNav`: the month grid and navigation.
  - `MonthView`, `DayView`, `YearView` and `Sidebar`: the views.
- **State machines**
  - `EventReview`: the extracted-events review.
  - `EventForm`: the editor.
  - `BackgroundSettings`: the background customiser.
- **Helpers**: `Seqs` (filtering) and `Wrappers` (`Option`).

Conventions:

- **Instants** are integer milliseconds on a local time line with a fixed
  offset. Millisecond `n * 86400000` is local midnight of day `n`, counted
  from 1970-01-01.
- **Civil dates** are `CivilDate(year, month, day)`. The month is 0-based, as
  in JavaScript, and the calendar is the proleptic Gregorian one.
- **Ids, the clock and outside results are parameters.** Fresh ids, the
  current time, the position fix and the distance function are all passed
  in.

## Model

| member | source | states |
|---|---|---|
| `Types.Label` | types.ts:1-6 | The four enum values print as "High", "Medium", "Low" and "None". A priority is outside the enum iff its label is none of those four strings. |
| `Types.PriorityOfLabel` | App.tsx:328 | A label read back as a priority prints as the same label, so a label outside the enum is never mistaken for an enum value. |
| `Types.LabelRoundTrip` | types.ts:1-6 | Printing a priority and reading the label back gives the same priority. |
| `Interval.IsOverlapping` | utils/time.ts:9-11 | Two events can overlap only if at least one of them has positive length. |
| `Interval.OverlapSymmetric` | utils/time.ts:9-11 | Overlap does not depend on the order of the two events. |
| `Interval.BackToBackNoOverlap` | utils/time.ts:10 | An event ending exactly when the other starts overlaps it in neither order. |
| `Interval.DisjointNoOverlap` | utils/time.ts:10 | Ranges separated in time (one ends at or before the other starts) never overlap. |
| `Interval.SelfOverlap` | utils/time.ts:10 | An event overlaps itself exactly when it has positive length. A zero-length event never does. |
| `Interval.PointOverlap` | utils/time.ts:10 | A zero-length event overlaps another exactly when its instant lies strictly inside the other's range. |
| `Interval.ContainedOverlaps` | utils/time.ts:10 | A non-empty range inside another range overlaps it. |
| `EventStore.FindConflict` | App.tsx:227-229 | Returns nothing iff no stored event has a different id and overlaps the candidate. Otherwise it returns the earliest such event in collection order. The candidate never conflicts with its own id. |
| `EventStore.SaveEvent` | App.tsx:199-223 | For a stored id: same length, every entry with that id becomes the saved event, every other entry is unchanged. For an unknown id: the old list followed by exactly one event with the fresh id and the saved data. |
| `EventStore.SaveKeepsIdsUnique` | App.tsx:212-217 | If ids were unique and the fresh id is unused, ids stay unique after a save. The saved data appears under the id it was stored under. |
| `EventStore.HandleSaveEvent` | App.tsx:225-238 | On a conflict the list is unchanged and the pending conflict records the candidate and the first conflicting event. Without one the candidate is saved at once. |
| `EventStore.SaveWithoutConflictHasNoOverlap` | App.tsx:231-237 | When a save goes through without a conflict, no other stored event overlaps the saved event. |
| `EventStore.HandleDeleteEvent` | App.tsx:240-245 | No event with the id is left. Every event with another id keeps its multiplicity, so nothing else is removed. |
| `EventStore.DeleteAppend` | App.tsx:241 | Deleting from a concatenation deletes from each part, so the survivors keep their order. |
| `EventStore.DeleteOne` | App.tsx:241 | A single event survives iff its id differs from the deleted id. |
| `EventStore.DeleteUndoesNewSave` | App.tsx:199-245 | Saving a new event under an unused fresh id and then deleting that id restores the collection exactly. |
| `EventStore.AddEvents` | App.tsx:270-276 | The old list is a prefix. Each draft follows in order, under its own id. |
| `EventStore.AddEventsKeepsIdsUnique` | App.tsx:270-276 | Distinct fresh ids that are unused keep all ids unique. |
| `EventStore.Reschedule` | App.tsx:497-502 | Only start and end of the events with the named id change. Ids, length and every other event are unchanged. |
| `EventStore.AcceptSuggestion` | App.tsx:493-514 | As written: the stored events are rescheduled, then the pending candidate is saved as submitted, and the conflict is cleared. |
| `EventStore.AcceptSuggestionLosesCandidateMove` | App.tsx:497-509 | Counterexample: the suggestion names the new candidate, and the candidate is appended at its old time, still overlapping. |
| `EventStore.AcceptSuggestionFixed` | App.tsx:493-514 | Corrected accept: the conflict is cleared, and without a pending candidate it is the reschedule alone. When the suggestion names an event other than the candidate, it is exactly the accept as written, so the candidate is saved as submitted. |
| `EventStore.AcceptFixedAgrees` | App.tsx:493-514 | With a pending candidate, the corrected accept is the accept as written with the candidate first moved when it is the named event. So the candidate is always saved, and the two differ only when the suggestion names it. |
| `EventStore.AcceptFixedMovesNamedEvent` | App.tsx:497-509 | After the corrected accept, the event the suggestion names has the suggested times. This holds for every stored event with that id and for the candidate when it is named. |
| `EventStore.IgnoreConflict` | App.tsx:516-523 | The pending candidate is saved despite the overlap and the conflict is cleared. With no pending conflict nothing changes. |
| `EventStore.CancelConflict` | App.tsx:525-529 | The list is unchanged and the conflict is cleared. |
| `EventStore.ConflictOutcomes` | App.tsx:516-529 | After a save hits a conflict, cancel restores the state before the save exactly. Ignore yields the same list as an unconditional save. |
| `EventStore.MarkAutoNotified` | App.tsx:543-552 | Only `autoNotified` of the events with that id becomes true. Everything else is unchanged. |
| `EventStore.FindAssignment` | App.tsx:327 | Finds the label of the first assignment for the id, or reports that there is none. |
| `EventStore.MergePriorities` | App.tsx:326-329 | Each event takes the priority named by the first assignment with its id, and that priority prints as the assigned label. Without an assignment the event is unchanged. Ids and length are kept. |
| `EventStore.MergeNothingIsIdentity` | App.tsx:326-329 | An empty assignment list leaves the events as they are. |
| `EventStore.SanitizePhone` | App.tsx:463 | The result holds only digits and '+'. Each of these keeps its count from the input, and every other character is dropped. |
| `EventStore.SanitizePhoneAppend` | App.tsx:463 | Cleaning a concatenation cleans each part, so the kept characters stay in their original order. |
| `EventStore.SanitizePhoneChar` | App.tsx:463 | A single character is kept iff it is a digit or `+`. |
| `EventStore.SanitizePhoneIdempotent` | App.tsx:463 | Cleaning twice is cleaning once, and a clean number is unchanged. |
| `ProximityAlerter.Alertable` | hooks/useProximityAlerter.ts:27-33 | An alertable event needs a positive window and a priority other than Low. |
| `ProximityAlerter.AlertableEvents` | hooks/useProximityAlerter.ts:27-36 | An event is selected iff it is High or Medium, not yet notified, opted in, and starts in (now, now + window]. |
| `ProximityAlerter.ProximityEvents` | hooks/useProximityAlerter.ts:38 | Exactly the alertable events with a non-empty location. |
| `ProximityAlerter.ReminderEvents` | hooks/useProximityAlerter.ts:39 | Exactly the alertable events with no location or an empty one. |
| `ProximityAlerter.PartitionIsExact` | hooks/useProximityAlerter.ts:38-39 | Every alertable event lands in exactly one group: with a location it is a proximity event, without one a reminder. |
| `ProximityAlerter.CheckSmartAlerts` | hooks/useProximityAlerter.ts:21-80 | Disabled: nothing fires and nothing else changes. Enabled: see the list below the table. |
| `ProximityAlerter.NotifiedEventNeverRefires` | hooks/useProximityAlerter.ts:32 | Once the late handler has marked an event, no later cycle reports it. |
| `ProximityAlerter.ColdStart` | hooks/useProximityAlerter.ts:55-72 | With no previous position, exactly the reminders fire, and a fetched position becomes the last position. |
| `AssistantService.UpcomingWeek` | services/geminiService.ts:323-327 | Keeps exactly the events starting in (today, today + 7 days], each as often as before. |
| `AssistantService.PrioritizeTasks` | services/geminiService.ts:139-140 | No request and an empty answer iff the assistant is disabled or there are no events. Otherwise all events are sent. |
| `AssistantService.NoAssignmentsKeepsEvents` | App.tsx:323-329 | When no priorities are requested, merging the empty answer leaves every event as it was. |
| `AssistantService.Deadlines` | services/geminiService.ts:177 | Keeps exactly the events whose category is 'Exam', 'Project Deadline' or 'Homework'. |
| `AssistantService.DeadlinesIdempotent` | services/geminiService.ts:177 | Filtering the deadlines again keeps all of them and adds nothing. |
| `AssistantService.PlanStudyTime` | services/geminiService.ts:168-204 | Empty answer iff disabled or no events. Fails with the generic message iff there is no deadline. Otherwise it sends the whole schedule and the non-empty deadline list. |
| `AssistantService.PlanOverDeadlinesOnly` | services/geminiService.ts:168-204 | Planning over the selected deadlines alone sends that same list as both the schedule and the deadlines. |
| `AssistantService.CritiqueSchedule` | services/geminiService.ts:318-338 | Returns the "no events" message when disabled or empty. Otherwise returns the "clear week" message iff nothing starts in the next 7 days. It asks whenever something does, and then about exactly the events in the window, in collection order and with their multiplicities. |
| `AssistantService.ProactiveSuggestions` | services/geminiService.ts:365-385 | No suggestions iff disabled, fewer than 2 events, or fewer than 2 in the 7-day window. Otherwise the events in the 7-day window, at least two of them, are sent, as the critique would send them. |
| `AssistantService.SuggestionsImplyCritique` | services/geminiService.ts:318-385 | Whenever suggestions are requested, a critique is requested too, over exactly the same upcoming events. |
| `AssistantService.FewEventsNoSuggestions` | services/geminiService.ts:366-385 | Two events in the window imply two events in all, so the first guard never hides the second. |
| `AssistantService.ScoreAsWritten` | services/geminiService.ts:284-286 | The score table is defined exactly on the four enum priorities. Any other label has no score. |
| `AssistantService.RankAsWritten` | services/geminiService.ts:288-289 | With enum priorities the two events split the two roles, one each. |
| `AssistantService.RankAsWrittenUnknownPriority` | services/geminiService.ts:284-289 | With a priority outside the enum on either side, event2 is both kept and moved. |
| `AssistantService.RankAsWrittenUrgentExample` | services/geminiService.ts:284-289 | An "Urgent" first event drops out: the second event fills both roles. |
| `AssistantService.Score` | services/geminiService.ts:284 | Corrected score: between 0 and 3, equal to the table where the table is defined, 0 for any other label. |
| `AssistantService.RankConflict` | services/geminiService.ts:288-289 | The two events always split the roles. Event1 is kept iff its score is at least event2's. The kept event never scores lower. |
| `AssistantService.RankConflictAgreesOnEnum` | services/geminiService.ts:284-289 | On enum priorities the corrected ranking equals the ranking as written. |
| `AssistantService.RankConflictSwap` | services/geminiService.ts:288-289 | With different scores the argument order does not matter, so only ties favour event1. |
| `AssistantService.ResolveConflict` | services/geminiService.ts:278-289 | As written: fails with "AI features are disabled." iff the assistant is disabled. With enum priorities it asks to move one of the two events, keeping the one with the higher or equal score. With a priority outside the enum, event2 fills both roles. |
| `AssistantService.ResolveConflictFixed` | services/geminiService.ts:278-289 | Corrected: the same failure case. Otherwise the two events always split the roles, and the kept one never scores lower. |
| `AssistantService.ResolveConflictFixedAgrees` | services/geminiService.ts:284-289 | With enum priorities the corrected and the written versions give the same outcome. |
| `CivilTime.DaysInMonth` | components/YearView.tsx:29 | Between 28 and 31 days. February has 29 iff the year is a leap year. |
| `CivilTime.MakeDate` | hooks/useCalendar.ts:9-10 | The constructor always yields a valid date, whatever month and day it is given. |
| `CivilTime.Weekday` | hooks/useCalendar.ts:15-19 | The weekday lies in 0..6. |
| `CivilTime.WeekdayOfEpoch` | hooks/useCalendar.ts:15 | 1970-01-01 was a Thursday (weekday 4). |
| `CivilTime.WeekdayNextDay` | hooks/useCalendar.ts:15-19 | The day after a date has the next weekday, with Saturday wrapping to Sunday. |
| `CivilTime.MakeDateFirstOfMonth` | hooks/useCalendar.ts:9 | Day 1 of month m is day 1 of month m mod 12, in the year shifted by m div 12. |
| `CivilTime.MakeDateDayZero` | hooks/useCalendar.ts:10 | Day 0 of the next month is the last day of this month, with 28 or 29 days for February. |
| `CivilTime.MakeDateShift` | hooks/useCalendar.ts:38-48 | Adding k to the day field moves the normalised date by exactly k days. |
| `CivilTime.DateOfInstant` | components/CalendarView.tsx:81-84 | An instant lies on day d iff it falls between d's 00:00:00.000 and 23:59:59.999. Every instant is its day's midnight plus its time of day. |
| `CalendarNav.LocalMidnight` | hooks/useCalendar.ts:31 | The instant built from (y, m, d) is at midnight, on the normalised date. |
| `CalendarNav.MonthAfter` | hooks/useCalendar.ts:31 | One month after month m: December rolls into January of the next year. |
| `CalendarNav.MonthBefore` | hooks/useCalendar.ts:35 | One month before month m: January rolls back into December of the previous year. |
| `CalendarNav.FirstOfMonth` | hooks/useCalendar.ts:51 | For an in-range month, day 1 needs no normalisation. |
| `CalendarNav.PadToWeeks` | hooks/useCalendar.ts:14-20 | Start: the Sunday on or before the 1st. End: the Saturday on or after the last day. The span is whole weeks. |
| `CalendarNav.DayRange` | hooks/useCalendar.ts:22-26 | The loop yields valid dates with consecutive day numbers from start to end inclusive. |
| `CalendarNav.RangeContains` | hooks/useCalendar.ts:22-26 | Every date in a consecutive range appears in it. |
| `CalendarNav.WeekRunShape` | hooks/useCalendar.ts:14-26 | A Sunday-to-Saturday run of consecutive days has a length that is a multiple of 7 and no gaps. |
| `CalendarNav.MonthGrid` | hooks/useCalendar.ts:9-28 | See the list below the table. |
| `CalendarNav.NextMonth` | hooks/useCalendar.ts:30-32 | Midnight of day 1 of the following month, rolling December into January. |
| `CalendarNav.PreviousMonth` | hooks/useCalendar.ts:34-36 | Midnight of day 1 of the preceding month, rolling January into December. |
| `CalendarNav.NextYear` | hooks/useCalendar.ts:50-52 | Same month, day 1, year plus one, at midnight. |
| `CalendarNav.PreviousYear` | hooks/useCalendar.ts:54-56 | Same month, day 1, year minus one, at midnight. |
| `CalendarNav.ShiftDaysIsMsShift` | hooks/useCalendar.ts:38-48 | Shifting the day field by k is adding k whole days of milliseconds. |
| `CalendarNav.ShiftDaysMoves` | hooks/useCalendar.ts:38-48 | A k-day shift moves the calendar day by k and keeps the time of day. |
| `CalendarNav.NextDay` | hooks/useCalendar.ts:38-42 | The next calendar day at the same time of day. |
| `CalendarNav.PreviousDay` | hooks/useCalendar.ts:44-48 | The previous calendar day at the same time of day. |
| `CalendarNav.DayStepsAreInverse` | hooks/useCalendar.ts:38-48 | Next day and previous day undo each other. |
| `CalendarNav.MonthStepsAreInverse` | hooks/useCalendar.ts:30-36 | From midnight of a 1st, next month and previous month undo each other. |
| `MonthView.IsSameDay` | components/CalendarView.tsx:17-20 | Two instants on the same day are less than a day apart. |
| `MonthView.SameDayIffSameBlock` | components/CalendarView.tsx:17-20 | Equal year, month and date iff both instants fall in the same day. |
| `MonthView.PriorityColor` | components/CalendarView.tsx:24-31 | Each enum priority has its own colour. None and every unknown label share gray. |
| `MonthView.ListedOnDay` | components/CalendarView.tsx:80-86 | Listed iff the event starts before the next midnight and ends after this midnight. |
| `MonthView.ListedIffOverlapsDay` | components/CalendarView.tsx:80-86 | Listed on a day iff the event's range overlaps [midnight, next midnight). |
| `MonthView.MidnightPointListedNowhere` | components/CalendarView.tsx:85 | A zero-length event at exactly midnight is listed on no day. |
| `MonthView.ListedOnStartDay` | components/CalendarView.tsx:85 | A positive-length event is listed on the day it starts. |
| `MonthView.DailyEvents` | components/CalendarView.tsx:79-87 | The cell list holds exactly the listed events, each as often as in the collection, sorted by start. |
| `MonthView.FindById` | components/CalendarView.tsx:49 | The first event with the id, or nothing iff no event has it. |
| `MonthView.DragData` | components/CalendarView.tsx:38-40 | The drag payload is "event-" followed by the id. |
| `MonthView.HandleDrop` | components/CalendarView.tsx:42-65 | An "event-" payload updates iff the id is known. A "task-" payload schedules that task id. Anything else does nothing. |
| `MonthView.DropMovesEvent` | components/CalendarView.tsx:52-58 | A dropped event moves to the target day and keeps its id, other fields, time of day and duration. |
| `MonthView.DropUnknownEventIsNoAction` | components/CalendarView.tsx:49-50 | Dropping an unknown event id does nothing. |
| `MonthView.DropTaskAtNine` | components/CalendarView.tsx:59-63 | A dropped task is scheduled at 09:00:00.000 of the target day. |
| `EventOrder.InsertByStart` | components/CalendarView.tsx:87 | Insertion into a start-sorted list keeps it sorted and adds exactly the one event. |
| `EventOrder.SortByStart` | components/CalendarView.tsx:87 | The sort is a permutation of its input, ordered by start. |
| `EventOrder.SortIsStable` | components/CalendarView.tsx:87 | Events with equal starts keep their relative order, as in JavaScript's stable sort. |
| `EventOrder.SortSortedIsIdentity` | components/CalendarView.tsx:87 | Sorting an already sorted list changes nothing. |
| `DayView.DayEvents` | components/DayView.tsx:29-34 | The timeline shows exactly the events listed on that day by the month-view rule. |
| `DayView.SameEventsAsMonthCell` | components/DayView.tsx:34 | The timeline and the month cell show the same events with the same multiplicities. |
| `DayView.EventStyle` | components/DayView.tsx:36-52 | See the list below the table. |
| `DayView.BlockWithinDay` | components/DayView.tsx:36-52 | For an event listed on the day, the block starts inside the 96 rem timeline and ends at most one minimum height below it. |
| `DayView.BlockColor` | components/DayView.tsx:15-22 | The month view's fill colour, then ` border-` and a border shade. Gray exactly for None and unknown labels. |
| `DayView.BlockColorHigh` | components/DayView.tsx:16 | High is `bg-red-500 border-red-700`. |
| `DayView.BlockColorMedium` | components/DayView.tsx:17 | Medium is `bg-yellow-500 border-yellow-700`. |
| `DayView.BlockColorLow` | components/DayView.tsx:18 | Low is `bg-[var(--primary-500)] border-[var(--primary-700)]`. |
| `DayView.ClockHour` | components/DayView.tsx:89 | The 12-hour number lies in 1..12 and agrees with the hour modulo 12. |
| `DayView.LongHourLabel` | components/DayView.tsx:88 | The wide label ends in " AM" before noon and " PM" from noon on. |
| `DayView.ShortHourLabel` | components/DayView.tsx:89 | The narrow label ends in "a" before noon and "p" from noon on. |
| `DayView.LabelsAgree` | components/DayView.tsx:88-89 | Long label: the 12-hour number with " AM" or " PM". Short label: the same number with "a" or "p", the suffix chosen by hour < 12. |
| `DayView.LongLabelsDistinct` | components/DayView.tsx:88 | The 24 long labels are pairwise different. |
| `YearView.MiniCalendarGrid` | components/YearView.tsx:20-31 | See the list below the table. |
| `YearView.GridCells` | components/YearView.tsx:24-31 | `offset` empty cells, then the days 1 to the month length in order, and nothing else. |
| `YearView.ConstructorDates` | components/YearView.tsx:20-30 | `new Date(year, month, 1)`, `new Date(year, month + 1, 0)` and `new Date(year, month, i)` are the 1st, the true last day and day i. |
| `YearView.EventsInMonth` | components/YearView.tsx:33 | Exactly the events whose start has that year and month. |
| `YearView.HasEvent` | components/YearView.tsx:49 | A day can be marked only if the month has events. |
| `YearView.MarkedIffSomeEventStarts` | components/YearView.tsx:49 | A day is marked iff some event starts on it. End dates never mark a day. |
| `YearView.YearPanels` | components/YearView.tsx:81-91 | Twelve mini-calendars, one per month index 0..11. Each holds its month's events and a grid of the right length. |
| `Sidebar.FutureEvents` | components/Sidebar.tsx:24 | Exactly the events starting strictly after now, each as often as before. |
| `Sidebar.Upcoming` | components/Sidebar.tsx:23-26 | See the list below the table. |
| `Sidebar.UpcomingIsSortedFront` | components/Sidebar.tsx:23-26 | The list is the front of the future events sorted by start, so no event appears more often than it does in the collection. |
| `Sidebar.UpcomingAreEarliest` | components/Sidebar.tsx:23-26 | No future event left out starts earlier than one shown, so these are the earliest five. |
| `Sidebar.EmptyIffNoFutureEvents` | components/Sidebar.tsx:63-76 | The "No upcoming events." branch is taken iff nothing starts after now. |
| `EventReview.TempId` | components/EventReviewModal.tsx:132 | The temporary id is digits, one dash right after the clock reading, then digits. |
| `EventReview.TempIdInjective` | components/EventReviewModal.tsx:132 | Within one batch, different indices give different temporary ids. |
| `EventReview.TempIdDetermines` | components/EventReviewModal.tsx:132 | Two temporary ids are equal iff both the clock readings and the indices are. |
| `EventReview.InitReview` | components/EventReviewModal.tsx:127-137 | One item per incoming event, in order, all selected. Item i's temporary id uses its own clock reading and index i, and the ids are pairwise distinct whatever the readings. |
| `EventReview.SelectedCount` | components/EventReviewModal.tsx:139 | The count never exceeds the number of items. |
| `EventReview.CountIsLengthIffAllSelected` | components/EventReviewModal.tsx:139-140 | The count equals the length iff every item is selected. |
| `EventReview.CountIsZeroIffNoneSelected` | components/EventReviewModal.tsx:139 | The count is zero iff no item is selected. |
| `EventReview.IsAllSelected` | components/EventReviewModal.tsx:140 | All-selected implies a non-empty list with every item selected. |
| `EventReview.AllSelectedIff` | components/EventReviewModal.tsx:140 | All-selected iff the list is non-empty and every item is selected. |
| `EventReview.SetAll` | components/EventReviewModal.tsx:144 | Every item gets the given flag and nothing else changes. |
| `EventReview.ToggleSelectAll` | components/EventReviewModal.tsx:142-145 | From all selected, everything is deselected. From anything else, everything is selected. The all-selected state flips, and data and ids are kept. |
| `EventReview.ToggleSelect` | components/EventReviewModal.tsx:147-151 | Only the items with that temporary id flip. All others are unchanged. |
| `EventReview.ToggleTwice` | components/EventReviewModal.tsx:147-151 | Toggling the same item twice restores the list. |
| `EventReview.ToggleSelectCount` | components/EventReviewModal.tsx:139-151 | Toggling an unselected item with a unique id raises the count by exactly one. |
| `EventReview.UpdateItem` | components/EventReviewModal.tsx:153-157 | Items with the edited temporary id are replaced. Every other item is unchanged. |
| `EventReview.UpdateReplacesOne` | components/EventReviewModal.tsx:153-157 | With unique temporary ids, an update is a single-position replacement. |
| `EventReview.Confirm` | components/EventReviewModal.tsx:159-165 | As many events as selected items, each the data of a selected item. |
| `EventReview.ConfirmAppend` | components/EventReviewModal.tsx:159-165 | Confirming a concatenation confirms each part, so the confirmed events keep the list order. |
| `EventReview.ConfirmOne` | components/EventReviewModal.tsx:160-162 | One item contributes its event iff it is selected. |
| `EventReview.ConfirmKeepsSelected` | components/EventReviewModal.tsx:160-162 | Every selected item's data is confirmed. |
| `EventReview.ConfirmAllSelected` | components/EventReviewModal.tsx:159-165 | With everything selected, confirm returns every item's data in order. |
| `EventReview.ConfirmAfterInit` | components/EventReviewModal.tsx:127-165 | Confirming a freshly opened review returns exactly the incoming events. |
| `EventReview.ConfirmEnabledIffNonEmpty` | components/EventReviewModal.tsx:216 | Confirm is enabled iff some item is selected, iff it would add at least one event. |
| `EventForm.IsNewEvent` | components/EventModal.tsx:43 | An event that is not new is present and has a non-empty id. |
| `EventForm.DeleteOffered` | components/EventModal.tsx:267 | Delete is offered iff an event is loaded and its id is non-empty. |
| `EventForm.CanShowSmartAlert` | components/EventModal.tsx:66-69 | The option needs High or Medium priority and a non-empty location, email or phone. |
| `EventForm.LoadForm` | components/EventModal.tsx:45-64 | A missing field loads as an empty text field, and only then. A missing recurrence loads as 'none' with the default end date. |
| `EventForm.SmartAlertOnLoad` | components/EventModal.tsx:66-69 | The smart-alert option shows iff the priority is High or Medium and a location, email or phone is non-empty. |
| `EventForm.TrimAll` | components/EventModal.tsx:75 | Each piece is trimmed in place. |
| `EventForm.ParseAttendees` | components/EventModal.tsx:75 | Every parsed attendee is non-empty, has no comma and has no surrounding whitespace. |
| `EventForm.ParseAttendeesOnePiece` | components/EventModal.tsx:75 | Text without a comma gives its trimmed form as the single attendee, or nothing if that is empty. |
| `EventForm.ParseAttendeesAfterComma` | components/EventModal.tsx:75 | The attendees before the first comma come first, then those after it, in order and with repeats. |
| `EventForm.ParseJoinedAttendees` | components/EventModal.tsx:59-75 | Joining well-formed attendees with ", " and parsing gives back the same list. |
| `EventForm.HandleSave` | components/EventModal.tsx:73-96 | See the list below the table. |
| `EventForm.SaveKeepsIdentity` | components/EventModal.tsx:43 | Saving keeps "new event" and "delete offered" as they were. |
| `EventForm.SaveUneditedForm` | components/EventModal.tsx:45-96 | Load then save with no edits keeps the identity, the start and end instants the form holds, category, priority, notification flag and attendee list. |
| `EventForm.FieldsRoundTripAsWritten` | components/EventModal.tsx:21-22 | With the local clock on UTC, the date and time fields give back the loaded instant to the minute, as the corrected round trip does. |
| `EventForm.FieldsRoundTripShiftsDay` | components/EventModal.tsx:79-80 | At UTC+2, an event at 01:00 local time comes back one whole day earlier. |
| `EventForm.FieldsRoundTrip` | components/EventModal.tsx:48-51 | Taking the date field as the local date, the round trip keeps the date, drops only seconds and milliseconds, and is exact on whole minutes. |
| `EventForm.SaveMatchesFields` | components/EventModal.tsx:48-51 | For an event on whole minutes, the unedited save gives the instants the corrected date and time fields give back. |
| `Text.NatToString` | components/EventReviewModal.tsx:132 | A non-empty string of decimal digits. |
| `Text.ParseNatToString` | components/EventReviewModal.tsx:132 | Reading the digits back gives the number. |
| `Text.NatToStringInjective` | components/EventReviewModal.tsx:132 | Different numbers render differently. |
| `Text.Trim` | components/EventModal.tsx:75 | A contiguous slice with no whitespace at either end, and only whitespace cut on each side. |
| `Text.TrimTrimmed` | components/EventModal.tsx:75 | Trimming a string without surrounding whitespace changes nothing. |
| `Text.TrimAfterSpace` | components/EventModal.tsx:75 | A leading whitespace character does not change the result. |
| `Text.TrimIdempotent` | components/EventModal.tsx:75 | Trimming twice is trimming once. |
| `Text.Split` | components/EventModal.tsx:75 | At least one piece, and no piece holds the separator. |
| `Text.SplitJoin` | components/EventModal.tsx:75 | Joining the pieces with the separator restores the text. |
| `Text.JoinSplit` | components/EventModal.tsx:59 | Splitting separator-free parts joined by the separator gives the parts back. |
| `BackgroundSettings.HandleBgUpload` | components/ThemeCustomizer.tsx:57-85 | See the list below the table. |
| `BackgroundSettings.TriggerSingleUpload` | components/ThemeCustomizer.tsx:87-90 | Clears the active month and leaves the settings alone. |
| `BackgroundSettings.TriggerMonthUpload` | components/ThemeCustomizer.tsx:92-95 | Sets the active month and leaves the settings alone. |
| `BackgroundSettings.RemoveSingleBg` | components/ThemeCustomizer.tsx:97-99 | Clears the single image and nothing else. |
| `BackgroundSettings.RemoveMonthBg` | components/ThemeCustomizer.tsx:101-105 | Deletes only that month's key. |
| `BackgroundSettings.ModeChange` | components/ThemeCustomizer.tsx:107-109 | Changes only the mode. |
| `BackgroundSettings.MonthUploadFlow` | components/ThemeCustomizer.tsx:64-74 | Choosing a month and uploading stores the image under that month only, then resets the choice. |
| `BackgroundSettings.SingleUploadFlow` | components/ThemeCustomizer.tsx:75-81 | Choosing single and uploading changes only the single image. |
| `BackgroundSettings.RemoveUndoesMonthUpload` | components/ThemeCustomizer.tsx:101-105 | Removing a freshly uploaded month image restores the settings. |
| `BackgroundSettings.RemoveUndoesSingleUpload` | components/ThemeCustomizer.tsx:97-99 | Removing after a single upload leaves the settings with no single image. |

Rows whose states cell says "See the list below the table":

- `ProximityAlerter.CheckSmartAlerts`, when enabled:
  - It reports only alertable, un-notified events, and every alertable
    reminder.
  - It requests a position iff some alertable event has a location.
  - A fetched position replaces the last position. An error, or no request,
    keeps the last position.
  - Proximity events fire iff there was a previous position and the distance
    moved is strictly below the threshold.
  - With a fix, a previous position and movement below the threshold, the
    reminders fire in collection order, then the proximity events in
    collection order, so every alertable event fires exactly once.
    Otherwise exactly the reminders fire, in collection order.
- `CalendarNav.MonthGrid`:
  - The grid starts on a Sunday at most 6 days before the 1st and ends on a
    Saturday at most 6 days after the last day.
  - Its days are consecutive, so its length is a multiple of 7.
  - Every day of the month appears in it.
- `DayView.EventStyle`:
  - The top offset is 4 rem per hour since midnight: non-negative, 0 for
    events starting before the day, and below 96 rem for events starting on
    the day.
  - The height is never under 15 minutes' worth, and equals the duration for
    events of 15 minutes or more that lie inside the day.
  - A block whose part on the day is shorter than 15 minutes, including a
    zero-length event, is exactly 15 minutes' worth (1 rem) high.
  - An event that starts before the day and ends inside it, with at least 15
    minutes on the day, is as high as the time from midnight to its end.
  - An event running to the end of the day, with at least 15 minutes of it
    on the day, has its block end at 23:59:59.999.
- `YearView.MiniCalendarGrid`:
  - Exactly weekday-of-the-1st empty cells come first.
  - Then days 1 to the last day follow in order.
  - The length is the offset plus the days in the month.
- `Sidebar.Upcoming`:
  - At most five events, sorted by start, all from the collection and all
    starting after now.
  - There are exactly min(5, number of future events) of them.
  - No event appears more often than it does in the collection.
- `EventForm.HandleSave`:
  - Nothing is saved iff no event is loaded.
  - The id and `autoNotified` carry over.
  - Every other event field is taken from the form: title, times,
    description, category, priority, location, link, email, phone and the
    alert opt-in.
  - The recurrence frequency is saved. Its end date is absent iff the
    frequency is 'none', and is the chosen date otherwise.
  - The attendees are the parsed text field.
- `BackgroundSettings.HandleBgUpload`:
  - Without a file nothing changes, and the mode never changes.
  - With an active month, only that month's image is set, every other month
    and the single image are kept, and the active month resets.
  - Without one, only the single image is set.

## Left out

- React state, effects, intervals and closure staleness.
  - Every handler is a sequential function from state to state.
  - `saveEvent` reading a stale `events` after `setEvents` in
    `handleAcceptSuggestion` (App.tsx:504-508) is not modelled: the save sees
    the rescheduled list.
  - In the app, when the pending candidate is an event already stored,
    `saveEvent` sets the list to `events.map(...)` (App.tsx:213) over the
    list from before `setEvents(updatedEvents)` (:504). That later update
    wins, so the reschedule is discarded. `EventStore.AcceptSuggestion`'s
    "the stored events are rescheduled" holds in the app only for a new
    candidate, whose save is a functional update (:217).
- Hook call arity. App.tsx:554 passes three arguments to a hook that takes
  five (hooks/useProximityAlerter.ts:12-18). The hook is modelled with its
  five parameters, as its own file declares them.
  - In the app `alertWindowMinutes` is undefined, so the window end at
    hooks/useProximityAlerter.ts:28 is an Invalid Date. The comparison
    `event.start <= alertThreshold` (:35) is then false for every event, so
    no event is alertable and no reminder or proximity alert ever fires.
  - The model's `CheckSmartAlerts` describes the hook as it would behave if
    called with a window and a threshold.
- Fields the editor uses that types.ts lacks.
  - The editor imports a recurrence-frequency type and reads attendee and
    recurrence fields that types.ts does not declare.
  - `EventForm.FormEvent` adds them around the event record.
  - No recurrence expansion exists in the code, so none is modelled.
- Priorities outside the enum. The priority merge casts any label in
  unchecked (App.tsx:328). `Priority.Other` carries such a label, and its
  type excludes the four enum strings. The remaining code is modelled on it
  as written.
- Calendar scope.
  - Years 0–99, which JavaScript's `Date` constructor maps to 1900–1999, are
    not modelled.
  - Daylight-saving changes are not modelled: the local offset is fixed.
- Date text. Parsing and formatting of date strings are not modelled:
  `new Date(string)`, `toISOString`, the locale formatters and the editor's
  date and time text fields.
  - The editor's form holds instants directly.
  - The fields' effect on an instant is modelled on its own, by
    `EventForm.FieldsRoundTripAsWritten` and `EventForm.FieldsRoundTrip`
    (see Findings).
- EventForm.SaveUneditedForm: promises that the start and end come back
  unchanged only because the model's form holds instants. In the component
  the date field is the UTC date (components/EventModal.tsx:21, 48, 50), the
  time field is the local hours and minutes (lines 22, 49, 51), and saving
  reads both as local time (lines 79-80). So seconds and milliseconds are
  lost, and east of UTC an early-morning event moves back a day.
- The month view's drop callbacks. `MonthView.HandleDrop` models the handler
  with the `onEventUpdate` and `onScheduleTask` props that
  components/CalendarView.tsx:12-13 declares. App.tsx:579-586 renders the
  month view without either prop, so in the app the calls at
  components/CalendarView.tsx:58 and :63 reach an undefined callback and the
  drop reschedules nothing.
- Outside values are parameters.
  - Fresh ids from `Date.now()` and `Math.random()`, and the current time.
  - `haversineDistance` is an uninterpreted distance function.
  - Geolocation is a position-or-error input.
  - The uploaded image's data URL stands in for the FileReader result.
- All generative-AI calls, prompts and response parsing. Only the local
  guards, filters and ranking are modelled.
- The pixel-to-time mapping of a drop on the day timeline
  (components/DayView.tsx:59-79), which works on floating-point layout
  measurements.
- `goToToday` (hooks/useCalendar.ts:58-60), which only reads the clock.
- UI-only components, notifications, local storage, theme CSS, speech input
  and the `mailto:`/`sms:` navigation.
- CalendarNav.MonthGrid: takes the displayed year and month rather than the
  current date. The grid depends on nothing else.
- YearView.MiniCalendarGrid: its cells are the civil dates themselves.
  `YearView.ConstructorDates` shows that they are the dates the `Date`
  constructor calls produce.
- DayView.EventStyle: JavaScript's floating-point numbers are modelled as
  exact reals, so rounding in the divisions is not represented.
- DayView.EventStyle: the result is the pair of numbers. Rendering them as
  `${top}rem` strings is not modelled.

## Findings

| source | as written | input that shows it | evidently intended | confidence | as-written member | corrected member |
|---|---|---|---|---|---|---|
| App.tsx:497-509 | Accepting a suggestion reschedules only stored events, then saves the pending candidate at its submitted time. | A new candidate with id "" conflicts with a stored event "b", and the suggestion names "" with new times. The candidate is appended at its old times and still overlaps "b". | The event the suggestion names is moved, including the candidate. components/ConflictModal.tsx:41 shows the user that the candidate will be rescheduled when the ids match. | proved on the model, not executed | `EventStore.AcceptSuggestionLosesCandidateMove` | `EventStore.AcceptSuggestionFixed` |
| services/geminiService.ts:284-289 | The score table covers only the four enum labels. The two roles are picked by two independent comparisons. | event1 has priority "Urgent", which the priority merge can store (App.tsx:328). Both comparisons read `undefined` and are false, so event2 is named both the more and the less important event. | The two events split the roles, and an unknown label ranks as no priority. | proved on the model, not executed | `AssistantService.RankAsWrittenUnknownPriority` | `AssistantService.RankConflict` |
| components/EventModal.tsx:21-22 | The date field is filled with the UTC date and the time field with the local time, and saving reads both as local time. | At UTC+2, an event at 01:00 local time on 1 January 1970 is loaded as date 1969-12-31, time 01:00, and saved back at 01:00 on 31 December. | Both fields hold the local date and time, so an unedited save keeps the event's date and minute. | proved on the model, not executed | `EventForm.FieldsRoundTripShiftsDay` | `EventForm.FieldsRoundTrip` |

=== FILE: assistant_service.dfy ===
/** The deterministic part of services/geminiService.ts: the guards, window
    and category filters that run before a request goes to the model, and the
    priority ranking that decides which of two conflicting events is moved.
    The requests themselves, their prompts and the parsing of the answers are
    outside the model; an outcome `Ask…` stands for "a request is sent with
    this selection". */
module AssistantService {
  import opened Wrappers
  import opened Types
  import opened Seqs
  import CivilTime
  import EventStore

  /** `process.env.API_KEY === "NO_API_KEY"`: only that literal value disables
      the assistant; an absent key does not. */
  predicate AiDisabled(apiKey: Option<string>)
  {
    apiKey == Some("NO_API_KEY")
  }

  /** Length of the look-ahead window of the critique and the suggestions. */
  const WeekMs: int := 7 * CivilTime.MsPerDay

  /** Events with `today < start <= today + 7 days`, in collection order. */
  function UpcomingWeek(events: seq<Event>, today: int): (r: seq<Event>)
    ensures forall e :: e in r <==> e in events && today < e.data.start <= today + WeekMs
    ensures forall e :: multiset(r)[e] == if today < e.data.start <= today + WeekMs then multiset(events)[e] else 0
  {
    var inWindow := (e: Event) => today < e.data.start <= today + WeekMs;
    FilterMultiset(events, inWindow);
    Filter(events, inWindow)
  }

  // ---------------------------------------------------------------------------
  // prioritizeTasks

  datatype PrioritizeOutcome = NoAssignments | AskPriorities(tasks: seq<Event>)

  /** With the assistant disabled or nothing to rank, the result is the empty
      list and no request is made; otherwise every event is sent. */
  function PrioritizeTasks(apiKey: Option<string>, events: seq<Event>): (r: PrioritizeOutcome)
    ensures r.NoAssignments? <==> AiDisabled(apiKey) || |events| == 0
    ensures r.AskPriorities? ==> r.tasks == events && |r.tasks| > 0
  {
    if AiDisabled(apiKey) || |events| == 0 then NoAssignments else AskPriorities(events)
  }

  /** When no request is made the caller merges an empty answer, which leaves
      every event as it was. */
  lemma NoAssignmentsKeepsEvents(apiKey: Option<string>, events: seq<Event>)
    requires PrioritizeTasks(apiKey, events).NoAssignments?
    ensures EventStore.MergePriorities(events, []) == events
  {
    EventStore.MergeNothingIsIdentity(events);
  }

  // ---------------------------------------------------------------------------
  // planStudyTime

  /** Categories that count as deadlines, compared exactly (case-sensitive). */
  predicate IsDeadlineCategory(category: string)
  {
    category == "Exam" || category == "Project Deadline" || category == "Homework"
  }

  predicate IsDeadline(e: Event)
  {
    IsDeadlineCategory(e.data.category)
  }

  function Deadlines(events: seq<Event>): (r: seq<Event>)
    ensures forall e :: e in r <==> e in events && IsDeadlineCategory(e.data.category)
  {
    Filter(events, IsDeadline)
  }

  /** Selecting the deadlines twice selects nothing more and nothing less. */
  lemma DeadlinesIdempotent(events: seq<Event>)
    ensures Deadlines(Deadlines(events)) == Deadlines(events)
  {
    FilterIdempotent(events, IsDeadline);
  }

  /** The "no deadlines" error is raised inside the `try`, so the caller only
      ever sees the generic failure message. */
  const StudyPlanFailure: string := "Failed to generate a study plan. The AI could not complete the request."

  datatype StudyPlanOutcome = NoSessions | StudyPlanFailed(message: string) | AskStudyPlan(schedule: seq<Event>, deadlines: seq<Event>)

  function PlanStudyTime(apiKey: Option<string>, events: seq<Event>): (r: StudyPlanOutcome)
    ensures r.NoSessions? <==> AiDisabled(apiKey) || |events| == 0
    ensures r.StudyPlanFailed? <==>
              !AiDisabled(apiKey) && |events| > 0 && forall e :: e in events ==> !IsDeadlineCategory(e.data.category)
    ensures r.StudyPlanFailed? ==> r.message == StudyPlanFailure
    ensures r.AskStudyPlan? ==>
              && r.schedule == events
              && |r.deadlines| > 0
              && forall e :: e in r.deadlines <==> e in events && IsDeadlineCategory(e.data.category)
  {
    if AiDisabled(apiKey) || |events| == 0 then NoSessions
    else
      var deadlines := Deadlines(events);
      assert |deadlines| > 0 ==> deadlines[0] in deadlines;
      if |deadlines| == 0 then StudyPlanFailed(StudyPlanFailure)
      else AskStudyPlan(events, deadlines)
  }

  /** Planning over the deadlines alone sends them both as the schedule and
      as the deadlines, unchanged. */
  lemma PlanOverDeadlinesOnly(apiKey: Option<string>, events: seq<Event>)
    requires PlanStudyTime(apiKey, events).AskStudyPlan?
    ensures var d := PlanStudyTime(apiKey, events).deadlines;
            PlanStudyTime(apiKey, d) == AskStudyPlan(d, d)
  {
    DeadlinesIdempotent(events);
  }

  // ---------------------------------------------------------------------------
  // critiqueSchedule

  const NoEventsMessage: string := "No events to analyze."
  const ClearWeekMessage: string := "Your schedule for the next 7 days is clear! Looks like a great time to relax or plan ahead."

  datatype CritiqueOutcome = CritiqueMessage(text: string) | AskCritique(upcoming: seq<Event>)

  function CritiqueSchedule(apiKey: Option<string>, events: seq<Event>, today: int): (r: CritiqueOutcome)
    ensures (AiDisabled(apiKey) || |events| == 0) ==> r == CritiqueMessage(NoEventsMessage)
    ensures !AiDisabled(apiKey) && |events| > 0 ==>
              (r == CritiqueMessage(ClearWeekMessage) <==>
                 forall e :: e in events ==> !(today < e.data.start <= today + WeekMs))
    ensures r.AskCritique? ==>
              && r.upcoming == UpcomingWeek(events, today)
              && |r.upcoming| > 0
              && forall e :: e in r.upcoming <==> e in events && today < e.data.start <= today + WeekMs
    ensures !AiDisabled(apiKey) && (exists e :: e in events && today < e.data.start <= today + WeekMs) ==>
              r.AskCritique?
  {
    if AiDisabled(apiKey) || |events| == 0 then CritiqueMessage(NoEventsMessage)
    else
      var upcoming := UpcomingWeek(events, today);
      assert |upcoming| > 0 ==> upcoming[0] in upcoming;
      if |upcoming| == 0 then CritiqueMessage(ClearWeekMessage) else AskCritique(upcoming)
  }

  // ---------------------------------------------------------------------------
  // getProactiveSuggestions

  datatype SuggestionsOutcome = NoSuggestions | AskSuggestions(upcoming: seq<Event>)

  /** Suggestions need at least two events overall and at least two in the
      coming week; otherwise the result is the empty list. */
  function ProactiveSuggestions(apiKey: Option<string>, events: seq<Event>, today: int): (r: SuggestionsOutcome)
    ensures r.NoSuggestions? <==> AiDisabled(apiKey) || |events| < 2 || |UpcomingWeek(events, today)| < 2
    ensures r.AskSuggestions? ==>
              && r.upcoming == UpcomingWeek(events, today)
              && |r.upcoming| >= 2
              && forall e :: e in r.upcoming <==> e in events && today < e.data.start <= today + WeekMs
  {
    if AiDisabled(apiKey) || |events| < 2 then NoSuggestions
    else
      var upcoming := UpcomingWeek(events, today);
      if |upcoming| < 2 then NoSuggestions else AskSuggestions(upcoming)
  }

  /** Whenever suggestions are requested, a critique would be requested too,
      over exactly the same upcoming events. */
  lemma SuggestionsImplyCritique(apiKey: Option<string>, events: seq<Event>, today: int)
    requires ProactiveSuggestions(apiKey, events, today).AskSuggestions?
    ensures CritiqueSchedule(apiKey, events, today) == AskCritique(ProactiveSuggestions(apiKey, events, today).upcoming)
  {
  }

  /** The window never grows the list, so fewer than two events overall means
      fewer than two upcoming ones: the first guard is implied by the second. */
  lemma FewEventsNoSuggestions(apiKey: Option<string>, events: seq<Event>, today: int)
    requires |UpcomingWeek(events, today)| >= 2
    ensures |events| >= 2
  {
  }

  // ---------------------------------------------------------------------------
  // resolveConflict: which event is kept and which is moved

  /** The score table as written: the four enum values are scored and any
      other string is missing from the table (`undefined`). */
  function ScoreAsWritten(p: Priority): (r: Option<int>)
    ensures r.None? <==> p.Other?
  {
    match p
    case High => Some(3)
    case Medium => Some(2)
    case Low => Some(1)
    case NoPriority => Some(0)
    case Other(_) => None
  }

  /** JavaScript's `>=` and `<` on numbers that may be `undefined`: any
      comparison involving `undefined` is false. */
  predicate JsAtLeast(a: Option<int>, b: Option<int>)
  {
    a.Some? && b.Some? && a.value >= b.value
  }

  predicate JsBelow(a: Option<int>, b: Option<int>)
  {
    a.Some? && b.Some? && a.value < b.value
  }

  datatype Ranking = Ranking(moreImportant: Event, lessImportant: Event)

  /** The ranking as written: two independent conditionals pick each role. */
  function RankAsWritten(event1: Event, event2: Event): (r: Ranking)
    ensures !event1.data.priority.Other? && !event2.data.priority.Other? ==>
              (r == Ranking(event1, event2) || r == Ranking(event2, event1))
  {
    var s1 := ScoreAsWritten(event1.data.priority);
    var s2 := ScoreAsWritten(event2.data.priority);
    Ranking(if JsAtLeast(s1, s2) then event1 else event2,
            if JsBelow(s1, s2) then event1 else event2)
  }

  /** With a priority outside the enum on either side both comparisons are
      false, so event2 is named both the event to keep and the event to move,
      and event1 drops out of the request. */
  lemma RankAsWrittenUnknownPriority(event1: Event, event2: Event)
    requires event1.data.priority.Other? || event2.data.priority.Other?
    ensures RankAsWritten(event1, event2) == Ranking(event2, event2)
  {
  }

  /** A concrete instance: an AI-assigned "Urgent" on the first event. */
  lemma RankAsWrittenUrgentExample()
    ensures var e1 := Event("a", EventData("Exam", 0, 60, None, "Exam", Other("Urgent"), None, None, None, None, None, None));
            var e2 := Event("b", EventData("Lunch", 30, 90, None, "Personal", Low, None, None, None, None, None, None));
            var r := RankAsWritten(e1, e2);
            r.moreImportant == r.lessImportant == e2
  {
  }

  /** Corrected score table: a priority outside the enum counts as no priority. */
  function Score(p: Priority): (r: int)
    ensures 0 <= r <= 3
    ensures ScoreAsWritten(p).Some? ==> r == ScoreAsWritten(p).value
    ensures p.Other? ==> r == 0
  {
    match ScoreAsWritten(p)
    case Some(s) => s
    case None => 0
  }

  /** The ranking as intended: the two events split the roles, the higher
      score is kept, and a tie keeps event1 and moves event2. */
  function RankConflict(event1: Event, event2: Event): (r: Ranking)
    ensures r == Ranking(event1, event2) || r == Ranking(event2, event1)
    ensures r.moreImportant == event1 <==> (Score(event1.data.priority) >= Score(event2.data.priority) || event1 == event2)
    ensures Score(r.moreImportant.data.priority) >= Score(r.lessImportant.data.priority)
  {
    if Score(event1.data.priority) >= Score(event2.data.priority) then Ranking(event1, event2)
    else Ranking(event2, event1)
  }

  /** On the four enum values the corrected ranking is the ranking as written. */
  lemma RankConflictAgreesOnEnum(event1: Event, event2: Event)
    requires !event1.data.priority.Other? && !event2.data.priority.Other?
    ensures RankConflict(event1, event2) == RankAsWritten(event1, event2)
  {
  }

  /** Swapping the arguments only matters on a tie. */
  lemma RankConflictSwap(event1: Event, event2: Event)
    requires Score(event1.data.priority) != Score(event2.data.priority)
    ensures RankConflict(event2, event1) == RankConflict(event1, event2)
  {
  }

  datatype ResolveOutcome = ResolveFailed(message: string) | AskReschedule(ranking: Ranking)

  /** `resolveConflict` as written: it fails outright when the assistant is
      disabled; else it asks for a new slot for the less important event as
      the written ranking names it, so a priority outside the enum sends
      event2 in both roles. */
  function ResolveConflict(apiKey: Option<string>, event1: Event, event2: Event): (r: ResolveOutcome)
    ensures r.ResolveFailed? <==> AiDisabled(apiKey)
    ensures r.ResolveFailed? ==> r.message == "AI features are disabled."
    ensures r.AskReschedule? && !event1.data.priority.Other? && !event2.data.priority.Other? ==>
              {r.ranking.moreImportant, r.ranking.lessImportant} == {event1, event2}
              && Score(r.ranking.moreImportant.data.priority) >= Score(r.ranking.lessImportant.data.priority)
    ensures r.AskReschedule? && (event1.data.priority.Other? || event2.data.priority.Other?) ==>
              r.ranking == Ranking(event2, event2)
  {
    if AiDisabled(apiKey) then ResolveFailed("AI features are disabled.")
    else
      var ranking := RankAsWritten(event1, event2);
      var enumOnly := !event1.data.priority.Other? && !event2.data.priority.Other?;
      assert enumOnly ==> ranking == RankConflict(event1, event2) by {
        if enumOnly {
          RankConflictAgreesOnEnum(event1, event2);
        }
      }
      AskReschedule(ranking)
  }

  /** `resolveConflict` with the corrected ranking: the two events always
      split the roles and the one kept never scores lower. */
  function ResolveConflictFixed(apiKey: Option<string>, event1: Event, event2: Event): (r: ResolveOutcome)
    ensures r.ResolveFailed? <==> AiDisabled(apiKey)
    ensures r.ResolveFailed? ==> r.message == "AI features are disabled."
    ensures r.AskReschedule? ==>
              {r.ranking.moreImportant, r.ranking.lessImportant} == {event1, event2}
              && Score(r.ranking.moreImportant.data.priority) >= Score(r.ranking.lessImportant.data.priority)
  {
    if AiDisabled(apiKey) then ResolveFailed("AI features are disabled.")
    else AskReschedule(RankConflict(event1, event2))
  }

  /** The two versions differ only when a priority outside the enum is
      involved. */
  lemma ResolveConflictFixedAgrees(apiKey: Option<string>, event1: Event, event2: Event)
    requires !event1.data.priority.Other? && !event2.data.priority.Other?
    ensures ResolveConflictFixed(apiKey, event1, event2) == ResolveConflict(apiKey, event1, event2)
  {
    RankConflictAgreesOnEnum(event1, event2);
  }
}

=== FILE: background_settings.dfy ===
/** The background-image settings of components/ThemeCustomizer.tsx: one image
    for every month or one image per month index, and which month a pending
    upload is for. */
module BackgroundSettings {
  import opened Wrappers

  datatype BgMode = Single | Monthly

  /** `BackgroundSettings`: images are data URLs; `monthlyImages` is keyed by
      month index. */
  datatype Settings = Settings(mode: BgMode, singleImage: Option<string>, monthlyImages: map<int, string>)

  /** The customizer's view: the settings it edits and `activeMonthUpload`. */
  datatype Customizer = Customizer(settings: Settings, activeMonth: Option<int>)

  /** `handleBgUpload`: `image` is the data URL the file reader delivers, None
      when no file was chosen. A pending month upload stores the image for
      that month and clears the pending month; otherwise the image becomes the
      single background. */
  function HandleBgUpload(c: Customizer, image: Option<string>): (r: Customizer)
    ensures image.None? ==> r == c
    ensures r.settings.mode == c.settings.mode
    ensures image.Some? ==> r.activeMonth.None?
    ensures image.Some? && c.activeMonth.Some? ==>
              && r.settings.singleImage == c.settings.singleImage
              && c.activeMonth.value in r.settings.monthlyImages
              && r.settings.monthlyImages[c.activeMonth.value] == image.value
              && (forall k :: k != c.activeMonth.value ==>
                    (k in r.settings.monthlyImages <==> k in c.settings.monthlyImages))
              && (forall k :: k != c.activeMonth.value && k in c.settings.monthlyImages ==>
                    r.settings.monthlyImages[k] == c.settings.monthlyImages[k])
    ensures image.Some? && c.activeMonth.None? ==>
              && r.settings.singleImage == image
              && r.settings.monthlyImages == c.settings.monthlyImages
  {
    if image.None? then c
    else if c.activeMonth.Some? then
      var s := c.settings;
      Customizer(s.(monthlyImages := s.monthlyImages[c.activeMonth.value := image.value]), None)
    else
      Customizer(c.settings.(singleImage := image), c.activeMonth)
  }

  /** `triggerSingleUpload`: the next upload is the single background. */
  function TriggerSingleUpload(c: Customizer): (r: Customizer)
    ensures r.settings == c.settings && r.activeMonth.None?
  {
    c.(activeMonth := None)
  }

  /** `triggerMonthUpload`: the next upload is for `month`. */
  function TriggerMonthUpload(c: Customizer, month: int): (r: Customizer)
    ensures r.settings == c.settings && r.activeMonth == Some(month)
  {
    c.(activeMonth := Some(month))
  }

  /** `removeSingleBg`. */
  function RemoveSingleBg(s: Settings): (r: Settings)
    ensures r.singleImage.None?
    ensures r.mode == s.mode && r.monthlyImages == s.monthlyImages
  {
    s.(singleImage := None)
  }

  /** `removeMonthBg`: drop that month's image and no other. */
  function RemoveMonthBg(s: Settings, month: int): (r: Settings)
    ensures month !in r.monthlyImages
    ensures forall k :: k != month ==> (k in r.monthlyImages <==> k in s.monthlyImages)
    ensures forall k :: k != month && k in s.monthlyImages ==> r.monthlyImages[k] == s.monthlyImages[k]
    ensures r.mode == s.mode && r.singleImage == s.singleImage
  {
    s.(monthlyImages := s.monthlyImages - {month})
  }

  /** `handleModeChange`. */
  function ModeChange(s: Settings, mode: BgMode): (r: Settings)
    ensures r.mode == mode
    ensures r.singleImage == s.singleImage && r.monthlyImages == s.monthlyImages
  {
    s.(mode := mode)
  }

  /** Clicking a month tile and uploading sets exactly that month's image and
      leaves nothing pending. */
  lemma MonthUploadFlow(c: Customizer, month: int, image: string)
    ensures var r := HandleBgUpload(TriggerMonthUpload(c, month), Some(image));
            && r.settings == c.settings.(monthlyImages := c.settings.monthlyImages[month := image])
            && r.activeMonth.None?
  {
  }

  /** Clicking the single-upload area and uploading replaces only the single
      image, whatever month upload was pending before. */
  lemma SingleUploadFlow(c: Customizer, image: string)
    ensures HandleBgUpload(TriggerSingleUpload(c), Some(image)).settings == c.settings.(singleImage := Some(image))
  {
  }

  /** Uploading an image for a month that had none and then removing it
      restores the monthly images. */
  lemma RemoveUndoesMonthUpload(c: Customizer, month: int, image: string)
    requires month !in c.settings.monthlyImages
    ensures RemoveMonthBg(HandleBgUpload(TriggerMonthUpload(c, month), Some(image)).settings, month) == c.settings
  {
    var s := c.settings;
    assert s.monthlyImages[month := image] - {month} == s.monthlyImages;
  }

  /** Uploading a single image and removing it leaves no single image and
      every other setting as it was. */
  lemma RemoveUndoesSingleUpload(c: Customizer, image: string)
    ensures RemoveSingleBg(HandleBgUpload(TriggerSingleUpload(c), Some(image)).settings)
            == c.settings.(singleImage := None)
  {
  }
}

=== FILE: calendar_nav.dfy ===
/** The month grid and the navigation of hooks/useCalendar.ts. The current
    date is an instant; `new Date(y, m, d)` is local midnight of MakeDate. */
module CalendarNav {
  import opened CivilTime

  /** `new Date(y, m, d)`: local midnight of the normalised date. */
  function LocalMidnight(y: int, m: int, day: int): (t: int)
    ensures TimeOfDay(t) == 0
    ensures DateOf(t) == MakeDate(y, m, day)
  {
    DayStartRoundTrip(MakeDate(y, m, day));
    DayStart(MakeDate(y, m, day))
  }

  /** Day 1 of the month after month `m` of year `y`. */
  lemma MonthAfter(y: int, m: int)
    requires 0 <= m < 12
    ensures MakeDate(y, m + 1, 1) == if m == 11 then CivilDate(y + 1, 0, 1) else CivilDate(y, m + 1, 1)
  {
    MakeDateFirstOfMonth(y, m + 1);
    if m == 11 {
      assert (m + 1) / 12 == 1 && (m + 1) % 12 == 0;
    } else {
      assert (m + 1) / 12 == 0 && (m + 1) % 12 == m + 1;
    }
  }

  /** Day 1 of the month before month `m` of year `y`. */
  lemma MonthBefore(y: int, m: int)
    requires 0 <= m < 12
    ensures MakeDate(y, m - 1, 1) == if m == 0 then CivilDate(y - 1, 11, 1) else CivilDate(y, m - 1, 1)
  {
    MakeDateFirstOfMonth(y, m - 1);
    if m == 0 {
      assert (m - 1) / 12 == -1 && (m - 1) % 12 == 11;
    } else {
      assert (m - 1) / 12 == 0 && (m - 1) % 12 == m - 1;
    }
  }

  /** Day 1 of an in-range month is that date itself. */
  lemma FirstOfMonth(y: int, m: int)
    requires 0 <= m < 12
    ensures MakeDate(y, m, 1) == CivilDate(y, m, 1)
  {
    MakeDateValid(CivilDate(y, m, 1));
  }

  /** Weekday of day number `n` (0 = Sunday); agrees with `Weekday`. */
  function WeekdayOfNumber(n: int): int
  {
    (n + 4) % 7
  }

  /** The padding of the month grid: back from the 1st (day number `firstN`)
      to the preceding Sunday, and on from the last day (`lastN`) to the next
      Saturday unless it already is one. */
  method PadToWeeks(firstN: int, lastN: int) returns (startDay: int, endDay: int)
    requires firstN <= lastN
    ensures startDay <= firstN < startDay + 7 && WeekdayOfNumber(startDay) == 0
    ensures lastN <= endDay < lastN + 7 && WeekdayOfNumber(endDay) == 6
    ensures (endDay + 1 - startDay) % 7 == 0
  {
    startDay := firstN - WeekdayOfNumber(firstN);
    endDay := lastN;
    if WeekdayOfNumber(lastN) != 6 {
      endDay := endDay + (6 - WeekdayOfNumber(lastN));
    }
  }

  /** The dates of day numbers `startDay` through `endDay`, pushed one at a
      time while the cursor has not passed the end. */
  method DayRange(startDay: int, endDay: int) returns (days: seq<CivilDate>)
    requires startDay <= endDay + 1
    ensures |days| == endDay + 1 - startDay
    ensures forall i :: 0 <= i < |days| ==> ValidDate(days[i]) && DayNumber(days[i]) == startDay + i
  {
    days := [];
    var cursor := startDay;
    while cursor <= endDay
      invariant startDay <= cursor <= endDay + 1
      invariant |days| == cursor - startDay
      invariant forall i :: 0 <= i < |days| ==> ValidDate(days[i]) && DayNumber(days[i]) == startDay + i
    {
      days := days + [FromDayNumber(cursor)];
      cursor := cursor + 1;
    }
  }

  /** A run of consecutive day numbers contains every valid date in its span. */
  lemma RangeContains(days: seq<CivilDate>, startDay: int, date: CivilDate)
    requires forall i :: 0 <= i < |days| ==> ValidDate(days[i]) && DayNumber(days[i]) == startDay + i
    requires ValidDate(date) && startDay <= DayNumber(date) < startDay + |days|
    ensures date in days
  {
    var k := DayNumber(date) - startDay;
    DayNumberInjective(days[k], date);
  }

  /** `b` is the calendar day right after `a`. */
  predicate IsNextDay(a: CivilDate, b: CivilDate)
  {
    ValidDate(a) && ValidDate(b) && DayNumber(b) == DayNumber(a) + 1
  }

  /** The shape of a run of consecutive days from a Sunday to a Saturday. */
  lemma WeekRunShape(days: seq<CivilDate>, startDay: int, endDay: int)
    requires startDay <= endDay && (endDay + 1 - startDay) % 7 == 0
    requires WeekdayOfNumber(startDay) == 0 && WeekdayOfNumber(endDay) == 6
    requires |days| == endDay + 1 - startDay
    requires forall i :: 0 <= i < |days| ==> ValidDate(days[i]) && DayNumber(days[i]) == startDay + i
    ensures |days| > 0 && |days| % 7 == 0
    ensures forall i :: 0 <= i < |days| - 1 ==> IsNextDay(days[i], days[i + 1])
    ensures ValidDate(days[0]) && Weekday(days[0]) == 0 && DayNumber(days[0]) == startDay
    ensures ValidDate(days[|days| - 1]) && Weekday(days[|days| - 1]) == 6 && DayNumber(days[|days| - 1]) == endDay
  {
  }

  /** The days shown for month `month` of `year` (the month of the current
      date): from the Sunday on or before the 1st through the Saturday on or
      after the last day, one entry per day. */
  method MonthGrid(year: int, month: int) returns (days: seq<CivilDate>)
    requires 0 <= month < 12
    ensures |days| > 0 && |days| % 7 == 0
    ensures forall i :: 0 <= i < |days| - 1 ==> IsNextDay(days[i], days[i + 1])
    ensures ValidDate(days[0]) && Weekday(days[0]) == 0
    ensures ValidDate(days[|days| - 1]) && Weekday(days[|days| - 1]) == 6
    ensures DayNumber(days[0]) <= DayNumber(CivilDate(year, month, 1)) < DayNumber(days[0]) + 7
    ensures var last := CivilDate(year, month, DaysInMonth(year, month));
            DayNumber(last) <= DayNumber(days[|days| - 1]) < DayNumber(last) + 7
    ensures forall d :: 1 <= d <= DaysInMonth(year, month) ==> CivilDate(year, month, d) in days
  {
    var first := MakeDate(year, month, 1);
    var last := MakeDate(year, month + 1, 0);
    FirstOfMonth(year, month);
    MakeDateDayZero(year, month);
    var dim := DaysInMonth(year, month);
    DayOfMonthNumber(year, month, dim);

    var startDay, endDay := PadToWeeks(DayNumber(first), DayNumber(last));
    days := DayRange(startDay, endDay);
    WeekRunShape(days, startDay, endDay);

    forall d | 1 <= d <= dim
      ensures CivilDate(year, month, d) in days
    {
      DayOfMonthNumber(year, month, d);
      RangeContains(days, startDay, CivilDate(year, month, d));
    }
  }

  /** `goToNextMonth`: day 1 of the following month, December rolling into
      January of the next year. */
  function NextMonth(currentDate: int): (t: int)
    ensures TimeOfDay(t) == 0
    ensures var cur := DateOf(currentDate);
            DateOf(t) == if cur.month == 11 then CivilDate(cur.year + 1, 0, 1) else CivilDate(cur.year, cur.month + 1, 1)
  {
    var cur := DateOf(currentDate);
    MonthAfter(cur.year, cur.month);
    LocalMidnight(cur.year, cur.month + 1, 1)
  }

  /** `goToPreviousMonth`: day 1 of the preceding month, January rolling back
      into December of the previous year. */
  function PreviousMonth(currentDate: int): (t: int)
    ensures TimeOfDay(t) == 0
    ensures var cur := DateOf(currentDate);
            DateOf(t) == if cur.month == 0 then CivilDate(cur.year - 1, 11, 1) else CivilDate(cur.year, cur.month - 1, 1)
  {
    var cur := DateOf(currentDate);
    MonthBefore(cur.year, cur.month);
    LocalMidnight(cur.year, cur.month - 1, 1)
  }

  /** `goToNextYear`: same month, day 1, year plus one. */
  function NextYear(currentDate: int): (t: int)
    ensures TimeOfDay(t) == 0
    ensures DateOf(t) == CivilDate(DateOf(currentDate).year + 1, DateOf(currentDate).month, 1)
  {
    var cur := DateOf(currentDate);
    FirstOfMonth(cur.year + 1, cur.month);
    LocalMidnight(cur.year + 1, cur.month, 1)
  }

  /** `goToPreviousYear`: same month, day 1, year minus one. */
  function PreviousYear(currentDate: int): (t: int)
    ensures TimeOfDay(t) == 0
    ensures DateOf(t) == CivilDate(DateOf(currentDate).year - 1, DateOf(currentDate).month, 1)
  {
    var cur := DateOf(currentDate);
    FirstOfMonth(cur.year - 1, cur.month);
    LocalMidnight(cur.year - 1, cur.month, 1)
  }

  /** `setDate(getDate() + k)` on the current instant: the day of the month
      moves by `k` (rolling over month ends) and the time of day is kept. */
  function ShiftDays(currentDate: int, k: int): int
  {
    var cur := DateOf(currentDate);
    LocalMidnight(cur.year, cur.month, cur.day + k) + TimeOfDay(currentDate)
  }

  /** `ShiftDays` is a plain millisecond shift. */
  lemma ShiftDaysIsMsShift(t: int, k: int)
    ensures ShiftDays(t, k) == t + k * MsPerDay
  {
    var cur := DateOf(t);
    var target := MakeDate(cur.year, cur.month, cur.day + k);
    MakeDateShift(cur, k);
    InstantDecomposes(t);
    assert ShiftDays(t, k) == DayStart(target) + TimeOfDay(t);
    assert DayStart(target) == DayStart(cur) + k * MsPerDay;
  }

  /** With a fixed local offset a calendar day is exactly 24 hours long, so
      shifting by `k` days keeps the time of day and moves the instant by
      `k` days' worth of milliseconds. */
  lemma {:induction false} ShiftDaysMoves(t: int, k: int)
    ensures ShiftDays(t, k) == t + k * MsPerDay
    ensures DayNumber(DateOf(ShiftDays(t, k))) == DayNumber(DateOf(t)) + k
    ensures TimeOfDay(ShiftDays(t, k)) == TimeOfDay(t)
  {
    ShiftDaysIsMsShift(t, k);
    ShiftByDays(t, k);
    InstantDecomposes(t);
    InstantDecomposes(t + k * MsPerDay);
  }

  /** `goToNextDay`. */
  function NextDay(currentDate: int): (t: int)
    ensures t == currentDate + MsPerDay
    ensures TimeOfDay(t) == TimeOfDay(currentDate)
    ensures DayNumber(DateOf(t)) == DayNumber(DateOf(currentDate)) + 1
  {
    ShiftDaysMoves(currentDate, 1);
    ShiftDays(currentDate, 1)
  }

  /** `goToPreviousDay`. */
  function PreviousDay(currentDate: int): (t: int)
    ensures t == currentDate - MsPerDay
    ensures TimeOfDay(t) == TimeOfDay(currentDate)
    ensures DayNumber(DateOf(t)) == DayNumber(DateOf(currentDate)) - 1
  {
    ShiftDaysMoves(currentDate, -1);
    ShiftDays(currentDate, -1)
  }

  /** The day steps undo each other. */
  lemma DayStepsAreInverse(t: int)
    ensures PreviousDay(NextDay(t)) == t
    ensures NextDay(PreviousDay(t)) == t
  {
    assert NextDay(t) == t + MsPerDay;
    assert PreviousDay(t) == t - MsPerDay;
  }

  /** Month steps undo each other on the first of a month. */
  lemma MonthStepsAreInverse(t: int)
    requires TimeOfDay(t) == 0 && DateOf(t).day == 1
    ensures PreviousMonth(NextMonth(t)) == t
    ensures NextMonth(PreviousMonth(t)) == t
  {
    BackAfterNextMonth(t);
    ForwardAfterPreviousMonth(t);
  }

  lemma {:induction false} BackAfterNextMonth(t: int)
    requires TimeOfDay(t) == 0 && DateOf(t).day == 1
    ensures PreviousMonth(NextMonth(t)) == t
  {
    var cur := DateOf(t);
    assert cur == CivilDate(cur.year, cur.month, 1);
    var back := PreviousMonth(NextMonth(t));
    assert DateOf(back) == cur;
    InstantDecomposes(t);
    InstantDecomposes(back);
  }

  lemma {:induction false} ForwardAfterPreviousMonth(t: int)
    requires TimeOfDay(t) == 0 && DateOf(t).day == 1
    ensures NextMonth(PreviousMonth(t)) == t
  {
    var cur := DateOf(t);
    assert cur == CivilDate(cur.year, cur.month, 1);
    var forward := NextMonth(PreviousMonth(t));
    assert DateOf(forward) == cur;
    InstantDecomposes(t);
    InstantDecomposes(forward);
  }

}

=== FILE: civil_time.dfy ===
/** Local civil time as the JavaScript `Date` methods the calendar uses see it
    (`getFullYear`, `getMonth`, `getDate`, `getDay`, `setDate`, `setHours`, and
    the `new Date(year, month, day)` constructor).

    An instant is an integer count of milliseconds on the LOCAL time line: the
    time zone offset is fixed and folded in, so instant 0 is 1970-01-01 00:00
    local time and every day is exactly 86 400 000 ms long. Dates follow the
    proleptic Gregorian calendar; months are numbered 0..11 as in JavaScript. */
module CivilTime {

  const MsPerSecond: int := 1000
  const MsPerMinute: int := 60_000
  const MsPerHour: int := 3_600_000
  const MsPerDay: int := 86_400_000

  predicate IsLeapYear(y: int)
  {
    (y % 4 == 0 && y % 100 != 0) || y % 400 == 0
  }

  function DaysInYear(y: int): int
  {
    if IsLeapYear(y) then 366 else 365
  }

  function DaysInMonth(y: int, m: int): (n: int)
    requires 0 <= m < 12
    ensures 28 <= n <= 31
    ensures m == 1 ==> (n == 29 <==> IsLeapYear(y))
  {
    if m == 1 then (if IsLeapYear(y) then 29 else 28)
    else if m == 3 || m == 5 || m == 8 || m == 10 then 30
    else 31
  }

  /** Days of year `y` that lie before the first of month `m` (0..12). */
  function DaysBeforeMonth(y: int, m: int): int
    requires 0 <= m <= 12
  {
    [0, 31, 59, 90, 120, 151, 181, 212, 243, 273, 304, 334, 365][m]
      + (if m >= 2 && IsLeapYear(y) then 1 else 0)
  }

  lemma DaysBeforeMonthStep(y: int, m: int)
    requires 0 <= m < 12
    ensures DaysBeforeMonth(y, m + 1) == DaysBeforeMonth(y, m) + DaysInMonth(y, m)
    ensures DaysBeforeMonth(y, 12) == DaysInYear(y)
  {
  }

  lemma {:induction false} DaysBeforeMonthMonotone(y: int, a: int, b: int)
    requires 0 <= a < b <= 12
    ensures DaysBeforeMonth(y, a + 1) <= DaysBeforeMonth(y, b)
    decreases b - a
  {
    if a + 1 < b {
      DaysBeforeMonthMonotone(y, a, b - 1);
      DaysBeforeMonthStep(y, b - 1);
    }
  }

  /** Days from 1970-01-01 to the first of January of year `y` (negative before 1970). */
  function DaysBeforeYear(y: int): int
    decreases if y < 1970 then 1970 - y else y - 1970
  {
    if y == 1970 then 0
    else if y > 1970 then DaysBeforeYear(y - 1) + DaysInYear(y - 1)
    else DaysBeforeYear(y + 1) - DaysInYear(y)
  }

  lemma DaysBeforeYearStep(y: int)
    ensures DaysBeforeYear(y + 1) == DaysBeforeYear(y) + DaysInYear(y)
  {
  }

  lemma {:induction false} DaysBeforeYearMonotone(a: int, b: int)
    requires a < b
    ensures DaysBeforeYear(a) + DaysInYear(a) <= DaysBeforeYear(b)
    decreases b - a
  {
    DaysBeforeYearStep(b - 1);
    if a + 1 < b {
      DaysBeforeYearMonotone(a, b - 1);
    }
  }

  /** A calendar date: `month` is 0-based (January is 0), `day` is 1-based. */
  datatype CivilDate = CivilDate(year: int, month: int, day: int)

  predicate ValidDate(d: CivilDate)
  {
    0 <= d.month < 12 && 1 <= d.day <= DaysInMonth(d.year, d.month)
  }

  /** Days since 1970-01-01 (the local epoch day). */
  function DayNumber(d: CivilDate): int
    requires 0 <= d.month < 12
  {
    DaysBeforeYear(d.year) + DaysBeforeMonth(d.year, d.month) + d.day - 1
  }

  /** Year containing day number `n`, searching upwards from `y`. */
  function YearUp(n: int, y: int): (r: int)
    requires DaysBeforeYear(y) <= n
    ensures DaysBeforeYear(r) <= n < DaysBeforeYear(r) + DaysInYear(r)
    decreases n - DaysBeforeYear(y)
  {
    DaysBeforeYearStep(y);
    if n < DaysBeforeYear(y) + DaysInYear(y) then y else YearUp(n, y + 1)
  }

  /** Year containing day number `n`, searching downwards from `y`. */
  function YearDown(n: int, y: int): (r: int)
    requires n < DaysBeforeYear(y) + DaysInYear(y)
    ensures DaysBeforeYear(r) <= n < DaysBeforeYear(r) + DaysInYear(r)
    decreases DaysBeforeYear(y) + DaysInYear(y) - n
  {
    DaysBeforeYearStep(y - 1);
    if DaysBeforeYear(y) <= n then y else YearDown(n, y - 1)
  }

  function YearOfDay(n: int): (r: int)
    ensures DaysBeforeYear(r) <= n < DaysBeforeYear(r) + DaysInYear(r)
  {
    DaysBeforeYearStep(1969);
    if n >= 0 then YearUp(n, 1970) else YearDown(n, 1969)
  }

  /** Month of year `y` containing day-of-year `r`, searching upwards from `m`. */
  function MonthFrom(y: int, r: int, m: int): (k: int)
    requires 0 <= m < 12 && DaysBeforeMonth(y, m) <= r < DaysInYear(y)
    ensures m <= k < 12 && DaysBeforeMonth(y, k) <= r < DaysBeforeMonth(y, k + 1)
    decreases 12 - m
  {
    DaysBeforeMonthStep(y, m);
    if r < DaysBeforeMonth(y, m + 1) then m else MonthFrom(y, r, m + 1)
  }

  /** The calendar date of epoch day `n`: the inverse of DayNumber. */
  function FromDayNumber(n: int): (d: CivilDate)
    ensures ValidDate(d)
    ensures DayNumber(d) == n
  {
    var y := YearOfDay(n);
    var r := n - DaysBeforeYear(y);
    var m := MonthFrom(y, r, 0);
    DaysBeforeMonthStep(y, m);
    CivilDate(y, m, r - DaysBeforeMonth(y, m) + 1)
  }

  /** Every valid date is recovered from its day number, so DayNumber is a
      bijection between valid dates and integers. */
  lemma DayNumberRoundTrip(d: CivilDate)
    requires ValidDate(d)
    ensures FromDayNumber(DayNumber(d)) == d
  {
    var n := DayNumber(d);
    var e := FromDayNumber(n);
    DaysBeforeMonthStep(d.year, d.month);
    if d.month < 11 {
      DaysBeforeMonthMonotone(d.year, d.month, 12);
    }
    if e.year < d.year {
      DaysBeforeYearMonotone(e.year, d.year);
    } else if d.year < e.year {
      DaysBeforeYearMonotone(d.year, e.year);
    }
    assert e.year == d.year;
    DaysBeforeMonthStep(e.year, e.month);
    if e.month < d.month {
      DaysBeforeMonthMonotone(d.year, e.month, d.month);
    } else if d.month < e.month {
      DaysBeforeMonthMonotone(d.year, d.month, e.month);
    }
  }

  lemma DayNumberInjective(d: CivilDate, e: CivilDate)
    requires ValidDate(d) && ValidDate(e)
    ensures DayNumber(d) == DayNumber(e) <==> d == e
  {
    DayNumberRoundTrip(d);
    DayNumberRoundTrip(e);
  }

  /** Day of the week, 0 = Sunday .. 6 = Saturday (`Date.prototype.getDay`).
      1970-01-01 was a Thursday. */
  function Weekday(d: CivilDate): (w: int)
    requires 0 <= d.month < 12
    ensures 0 <= w < 7
  {
    (DayNumber(d) + 4) % 7
  }

  /** The local epoch day, 1970-01-01, was a Thursday. */
  lemma WeekdayOfEpoch()
    ensures Weekday(CivilDate(1970, 0, 1)) == 4
  {
  }

  /** The day after a date falls on the next weekday, Saturday wrapping to
      Sunday. */
  lemma WeekdayNextDay(d: CivilDate, next: CivilDate)
    requires ValidDate(d) && ValidDate(next)
    requires DayNumber(next) == DayNumber(d) + 1
    ensures Weekday(next) == (Weekday(d) + 1) % 7
  {
    WeekStep(DayNumber(d) + 4);
  }

  lemma WeekStep(x: int)
    ensures (x + 1) % 7 == (x % 7 + 1) % 7
  {
  }

  /** `new Date(y, m, day)` at midnight: an out-of-range month rolls into
      neighbouring years and an out-of-range day (0, negative, or past the end
      of the month) rolls into neighbouring months. */
  function MakeDate(y: int, m: int, day: int): (d: CivilDate)
    ensures ValidDate(d)
  {
    FromDayNumber(DayNumber(CivilDate(y + m / 12, m % 12, 1)) + day - 1)
  }

  /** On in-range arguments the constructor builds exactly the date asked for. */
  lemma MakeDateValid(d: CivilDate)
    requires ValidDate(d)
    ensures MakeDate(d.year, d.month, d.day) == d
  {
    InRangeMakeDateNumber(d);
    DayNumberRoundTrip(d);
  }

  lemma InRangeMakeDateNumber(d: CivilDate)
    requires ValidDate(d)
    ensures MakeDate(d.year, d.month, d.day) == FromDayNumber(DayNumber(d))
  {
    assert d.month / 12 == 0 && d.month % 12 == d.month;
  }

  /** Day 1 of any month index: the month rolls over into the year the way
      `new Date(y, m, 1)` does (month -1 is December of the year before). */
  lemma MakeDateFirstOfMonth(y: int, m: int)
    ensures MakeDate(y, m, 1) == CivilDate(y + m / 12, m % 12, 1)
  {
    DayNumberRoundTrip(CivilDate(y + m / 12, m % 12, 1));
  }

  /** Day 0 of the following month is the last day of month `m`. */
  lemma MakeDateDayZero(y: int, m: int)
    requires 0 <= m < 12
    ensures MakeDate(y, m + 1, 0) == CivilDate(y, m, DaysInMonth(y, m))
  {
    var last := CivilDate(y, m, DaysInMonth(y, m));
    LastDayValid(y, m);
    DayZeroIsDayBefore(y, m);
    DayNumberRoundTrip(last);
  }

  lemma LastDayValid(y: int, m: int)
    requires 0 <= m < 12
    ensures ValidDate(CivilDate(y, m, DaysInMonth(y, m)))
  {
  }

  lemma DayZeroIsDayBefore(y: int, m: int)
    requires 0 <= m < 12
    ensures MakeDate(y, m + 1, 0) == FromDayNumber(DayNumber(CivilDate(y, m, DaysInMonth(y, m))))
  {
    NextMonthFollowsLastDay(y, m);
  }

  /** The first of the month after `m` (rolling into January of the next
      year) is the day after the last of month `m`. */
  lemma NextMonthFollowsLastDay(y: int, m: int)
    requires 0 <= m < 12
    ensures DayNumber(CivilDate(y + (m + 1) / 12, (m + 1) % 12, 1)) == DayNumber(CivilDate(y, m, DaysInMonth(y, m))) + 1
  {
    DaysBeforeMonthStep(y, m);
    if m < 11 {
      assert (m + 1) / 12 == 0 && (m + 1) % 12 == m + 1;
    } else {
      assert (m + 1) / 12 == 1 && (m + 1) % 12 == 0;
      DaysBeforeYearStep(y);
    }
  }

  /** Milliseconds since local midnight (`getHours`, `getMinutes`, ... combined). */
  function TimeOfDay(t: int): (ms: int)
    ensures 0 <= ms < MsPerDay
  {
    t % MsPerDay
  }

  /** The local calendar date of instant `t`. */
  function DateOf(t: int): (d: CivilDate)
    ensures ValidDate(d)
  {
    FromDayNumber(t / MsPerDay)
  }

  /** Local midnight at the start of date `d` (`setHours(0, 0, 0, 0)`). */
  function DayStart(d: CivilDate): int
    requires 0 <= d.month < 12
  {
    DayNumber(d) * MsPerDay
  }

  /** The last millisecond of date `d` (`setHours(23, 59, 59, 999)`). */
  function DayEnd(d: CivilDate): int
    requires 0 <= d.month < 12
  {
    DayStart(d) + 23 * MsPerHour + 59 * MsPerMinute + 59 * MsPerSecond + 999
  }

  /** An instant lies on date `d` exactly when it is between its midnight and
      its last millisecond; instants split uniquely into a date and a time of day. */
  lemma DateOfInstant(t: int, d: CivilDate)
    requires ValidDate(d)
    ensures DateOf(t) == d <==> DayStart(d) <= t <= DayEnd(d)
    ensures t == DayStart(DateOf(t)) + TimeOfDay(t)
  {
    var k := t / MsPerDay;
    var n := DayNumber(d);
    assert DayNumber(DateOf(t)) == k;
    assert DayEnd(d) == n * MsPerDay + MsPerDay - 1;
    assert k * MsPerDay <= t < k * MsPerDay + MsPerDay;
    DayNumberInjective(DateOf(t), d);
  }

  /** Midnight of a date lies on that date, at time of day zero. */
  lemma DayStartRoundTrip(d: CivilDate)
    requires ValidDate(d)
    ensures DateOf(DayStart(d)) == d
    ensures TimeOfDay(DayStart(d)) == 0
  {
    DateOfInstant(DayStart(d), d);
  }

  /** An instant `r` milliseconds after midnight of `d` (with `r` less than a
      day) lies on `d` at time of day `r`. */
  lemma InstantOnDay(d: CivilDate, r: int)
    requires ValidDate(d) && 0 <= r < MsPerDay
    ensures DateOf(DayStart(d) + r) == d
    ensures TimeOfDay(DayStart(d) + r) == r
  {
    DateOfInstant(DayStart(d) + r, d);
  }

  /** Adding `k` to the day of the month of a valid date moves its day
      number by exactly `k`, whatever month boundary is crossed. */
  lemma MakeDateShift(d: CivilDate, k: int)
    requires ValidDate(d)
    ensures DayNumber(MakeDate(d.year, d.month, d.day + k)) == DayNumber(d) + k
  {
    assert d.month / 12 == 0 && d.month % 12 == d.month;
  }

  /** Every instant is its date's midnight plus its time of day. */
  lemma InstantDecomposes(t: int)
    ensures DayNumber(DateOf(t)) == t / MsPerDay
    ensures t == DayStart(DateOf(t)) + TimeOfDay(t)
  {
    assert DayNumber(DateOf(t)) == t / MsPerDay;
  }

  /** Moving an instant by whole days moves its day number by as many days
      and keeps its time of day. */
  lemma ShiftByDays(t: int, k: int)
    ensures (t + k * MsPerDay) / MsPerDay == t / MsPerDay + k
    ensures (t + k * MsPerDay) % MsPerDay == t % MsPerDay
  {
    var n := t / MsPerDay;
    var r := t % MsPerDay;
    assert t == n * MsPerDay + r;
    assert t + k * MsPerDay == (n + k) * MsPerDay + r;
    DivModUnique(n + k, r);
  }

  lemma DivModUnique(n: int, r: int)
    requires 0 <= r < MsPerDay
    ensures (n * MsPerDay + r) / MsPerDay == n
    ensures (n * MsPerDay + r) % MsPerDay == r
  {
  }

  /** Day `d` of a month is `d - 1` days after its first day. */
  lemma DayOfMonthNumber(y: int, m: int, d: int)
    requires 0 <= m < 12
    ensures DayNumber(CivilDate(y, m, d)) == DayNumber(CivilDate(y, m, 1)) + d - 1
  {
  }
}

=== FILE: day_view.dfy ===
/** The single-day timeline of components/DayView.tsx: which events it shows,
    where each block sits (4 rem per hour from midnight), and the hour labels
    of the time scale. */
module DayView {
  import opened Types
  import opened Seqs
  import opened CivilTime
  import opened Text
  import MonthView

  /** `dailyEvents`: the events listed on the day, in collection order. */
  function DayEvents(events: seq<Event>, day: CivilDate): (r: seq<Event>)
    requires 0 <= day.month < 12
    ensures forall e :: e in r <==> e in events && MonthView.ListedOnDay(e, day)
  {
    Filter(events, (e: Event) => MonthView.ListedOnDay(e, day))
  }

  /** The day view shows the same events as the month view's cell for that
      day, each as often; only the order differs (the month view sorts). */
  lemma SameEventsAsMonthCell(events: seq<Event>, day: CivilDate)
    requires 0 <= day.month < 12
    ensures multiset(DayEvents(events, day)) == multiset(MonthView.DailyEvents(events, day))
  {
    FilterMultiset(events, (e: Event) => MonthView.ListedOnDay(e, day));
  }

  /** Rem units per hour of the timeline. */
  const RemPerHour: real := 4.0

  /** Height floor in minutes. */
  const MinBlockMinutes: real := 15.0

  datatype Style = Style(top: real, height: real)

  function MaxInt(a: int, b: int): int { if a >= b then a else b }
  function MinInt(a: int, b: int): int { if a <= b then a else b }
  function MaxReal(a: real, b: real): real { if a >= b then a else b }

  /** `calculateEventStyle`: the event is clamped to the day, the top is the
      clamped start in hours since midnight times 4 rem, and the height is
      the clamped duration, but at least 15 minutes, in the same unit. */
  function EventStyle(e: Event, day: CivilDate): (r: Style)
    requires ValidDate(day)
    ensures 0.0 <= r.top
    ensures e.data.start <= DayEnd(day) ==> r.top < 24.0 * RemPerHour
    ensures e.data.start <= DayStart(day) ==> r.top == 0.0
    ensures DateOf(e.data.start) == day ==>
              r.top == RemPerHour * (TimeOfDay(e.data.start) as real / MsPerHour as real)
    ensures r.height >= MinBlockMinutes / 60.0 * RemPerHour
    ensures DayStart(day) <= e.data.start && e.data.end <= DayEnd(day)
            && e.data.end - e.data.start >= 15 * MsPerMinute ==>
              r.height == RemPerHour * ((e.data.end - e.data.start) as real / MsPerHour as real)
    ensures e.data.end >= DayEnd(day) && DayEnd(day) - MaxInt(DayStart(day), e.data.start) >= 15 * MsPerMinute ==>
              r.top + r.height == RemPerHour * ((DayEnd(day) - DayStart(day)) as real / MsPerHour as real)
    ensures e.data.start < DayStart(day) && e.data.end <= DayEnd(day) && e.data.end - DayStart(day) >= 15 * MsPerMinute ==>
              r.height == RemPerHour * ((e.data.end - DayStart(day)) as real / MsPerHour as real)
    ensures MinInt(DayEnd(day), e.data.end) - MaxInt(DayStart(day), e.data.start) < 15 * MsPerMinute ==>
              r.height == MinBlockMinutes / 60.0 * RemPerHour
  {
    var dayStartMs := DayStart(day);
    var eventStartMs := MaxInt(dayStartMs, e.data.start);
    var eventEndMs := MinInt(DayEnd(day), e.data.end);
    var startMinutes := (eventStartMs - dayStartMs) as real / MsPerMinute as real;
    var durationMinutes := (eventEndMs - eventStartMs) as real / MsPerMinute as real;
    DateOfInstant(e.data.start, day);
    Style(startMinutes / 60.0 * RemPerHour, MaxReal(MinBlockMinutes, durationMinutes) / 60.0 * RemPerHour)
  }

  /** The block of an event listed on the day starts inside the 24-hour
      timeline and ends at most one minimum height below its bottom edge. */
  lemma BlockWithinDay(e: Event, day: CivilDate)
    requires ValidDate(day)
    requires MonthView.ListedOnDay(e, day)
    ensures 0.0 <= EventStyle(e, day).top < 24.0 * RemPerHour
    ensures EventStyle(e, day).top + EventStyle(e, day).height
              <= 24.0 * RemPerHour + MinBlockMinutes / 60.0 * RemPerHour
  {
    var r := EventStyle(e, day);
    var ds, de := DayStart(day), DayEnd(day);
    var s0 := MaxInt(ds, e.data.start);
    var e0 := MinInt(de, e.data.end);
    var startMinutes := (s0 - ds) as real / MsPerMinute as real;
    var durationMinutes := (e0 - s0) as real / MsPerMinute as real;
    assert r.top == startMinutes / 60.0 * RemPerHour;
    assert r.height == MaxReal(MinBlockMinutes, durationMinutes) / 60.0 * RemPerHour;
    assert s0 - ds <= de - ds < 24 * 60 * MsPerMinute;
    assert startMinutes < 24.0 * 60.0;
    assert startMinutes + durationMinutes <= 24.0 * 60.0;
  }

  /** What separates the fill class from the border class. */
  const BorderPrefix: string := " border-"

  /** The border shade that goes with each fill colour. */
  function BorderShade(p: Priority): string
  {
    match p
    case High => "red-700"
    case Medium => "yellow-700"
    case Low => "[var(--primary-700)]"
    case _ => "gray-600"
  }

  /** `getPriorityColor` of the day view: the month view's fill colour for
      the priority followed by a border class; every priority outside the
      enumeration gets the grey of `None`. */
  function BlockColor(p: Priority): (c: string)
    ensures |MonthView.PriorityColor(p)| + |BorderPrefix| < |c|
    ensures c[..|MonthView.PriorityColor(p)|] == MonthView.PriorityColor(p)
    ensures c[|MonthView.PriorityColor(p)|..|MonthView.PriorityColor(p)| + |BorderPrefix|] == BorderPrefix
    ensures c == "bg-gray-400 border-gray-600" <==> p == NoPriority || p.Other?
  {
    var fill := MonthView.PriorityColor(p);
    ConcatParts(fill, BorderPrefix, BorderShade(p));
    if p == NoPriority || p.Other? then
      GreyColor();
      fill + BorderPrefix + BorderShade(p)
    else
      assert fill[3] != 'g';
      fill + BorderPrefix + BorderShade(p)
  }

  /** The pieces of a three-part concatenation sit where they were put. */
  lemma ConcatParts(a: string, b: string, c: string)
    ensures (a + b + c)[..|a|] == a
    ensures (a + b + c)[|a|..|a| + |b|] == b
    ensures forall i :: 0 <= i < |a| ==> (a + b + c)[i] == a[i]
  {
  }

  lemma GreyColor()
    ensures "bg-gray-400" + BorderPrefix + "gray-600" == "bg-gray-400 border-gray-600"
  {
  }

  /** The class strings of the day view's `getPriorityColor`, letter for
      letter (the grey one is stated by `BlockColor` itself). */
  lemma BlockColorHigh()
    ensures BlockColor(High) == "bg-red-500 border-red-700"
  {
  }

  lemma BlockColorMedium()
    ensures BlockColor(Medium) == "bg-yellow-500 border-yellow-700"
  {
  }

  lemma BlockColorLow()
    ensures BlockColor(Low) == "bg-[var(--primary-500)] border-[var(--primary-700)]"
  {
  }

  // ---------------------------------------------------------------------------
  // Hour labels

  /** The 12-hour clock number of hour `h` (0..23): 12 for midnight and noon. */
  function ClockHour(h: int): (c: int)
    requires 0 <= h < 24
    ensures 1 <= c <= 12
    ensures c % 12 == h % 12
  {
    if h % 12 == 0 then 12 else h % 12
  }

  /** The wide-screen label: `12 AM`, `h AM`, `12 PM`, `(h-12) PM`. */
  function LongHourLabel(h: int): (s: string)
    requires 0 <= h < 24
    ensures |s| >= 4
    ensures s[|s| - 3] == ' ' && s[|s| - 2] == (if h < 12 then 'A' else 'P') && s[|s| - 1] == 'M'
  {
    if h == 0 then "12 AM"
    else if h < 12 then NatToString(h) + " AM"
    else if h == 12 then "12 PM"
    else NatToString(h - 12) + " PM"
  }

  /** The narrow-screen label: the clock number with `a` or `p`. */
  function ShortHourLabel(h: int): (s: string)
    requires 0 <= h < 24
    ensures |s| >= 2
    ensures s[|s| - 1] == if h < 12 then 'a' else 'p'
  {
    NatToString(ClockHour(h)) + (if h < 12 then "a" else "p")
  }

  /** "12", the clock number of midnight and noon. */
  lemma TwelveRendering()
    ensures NatToString(12) == "12"
  {
    assert NatToString(1) == "1";
  }

  /** Both labels show the same clock number and the same half of the day. */
  lemma {:induction false} LabelsAgree(h: int)
    requires 0 <= h < 24
    ensures LongHourLabel(h) == NatToString(ClockHour(h)) + (if h < 12 then " AM" else " PM")
    ensures ShortHourLabel(h) == NatToString(ClockHour(h)) + (if h < 12 then "a" else "p")
  {
    if h == 0 || h == 12 {
      TwelveRendering();
    } else if h < 12 {
      assert ClockHour(h) == h;
    } else {
      assert ClockHour(h) == h - 12;
    }
  }

  /** The clock number and the half of the day determine the hour. */
  lemma ClockHourAndHalf(h1: int, h2: int)
    requires 0 <= h1 < 24 && 0 <= h2 < 24
    requires ClockHour(h1) == ClockHour(h2) && (h1 < 12 <==> h2 < 12)
    ensures h1 == h2
  {
  }

  /** The 24 long labels are all different. */
  lemma {:induction false} LongLabelsDistinct(h1: int, h2: int)
    requires 0 <= h1 < 24 && 0 <= h2 < 24
    ensures LongHourLabel(h1) == LongHourLabel(h2) <==> h1 == h2
  {
    if LongHourLabel(h1) == LongHourLabel(h2) {
      LabelsAgree(h1);
      LabelsAgree(h2);
      var n1, n2 := NatToString(ClockHour(h1)), NatToString(ClockHour(h2));
      var s1: string := if h1 < 12 then " AM" else " PM";
      var s2: string := if h2 < 12 then " AM" else " PM";
      LabelSplit(n1, s1, n2, s2);
      NatToStringInjective(ClockHour(h1), ClockHour(h2));
      assert h1 < 12 <==> h2 < 12 by {
        assert s1[1] == (if h1 < 12 then 'A' else 'P');
        assert s2[1] == (if h2 < 12 then 'A' else 'P');
      }
      ClockHourAndHalf(h1, h2);
    }
  }

  /** Two labels with suffixes of equal length split the same way. */
  lemma LabelSplit(n1: string, s1: string, n2: string, s2: string)
    requires |s1| == |s2|
    requires n1 + s1 == n2 + s2
    ensures n1 == n2 && s1 == s2
  {
    var w := n1 + s1;
    assert n1 == w[..|n1|] && n2 == w[..|n2|];
    assert s1 == w[|n1|..] && s2 == w[|n2|..];
  }
}

=== FILE: event_form.dfy ===
/** The event editor of components/EventModal.tsx: loading an event into the
    form, the "new event" and smart-alert predicates, attendee parsing and the
    construction of the saved event. */
module EventForm {
  import opened Wrappers
  import opened Types
  import opened Seqs
  import opened Text
  import CivilTime

  /** The recurrence frequencies the form offers. */
  datatype Freq = Never | Daily | Weekly | Monthly

  datatype RecurrenceRule = RecurrenceRule(freq: Freq, until: Option<string>)

  /** The event as the editor sees it: the fields of types.ts plus the
      attendee list and recurrence rule this file reads and writes, which the
      shown types.ts does not declare. The id is optional because a draft
      handed in for creation may carry none. */
  datatype FormEvent = FormEvent(
    id: Option<string>,
    data: EventData,
    attendees: Option<seq<string>>,
    recurrenceRule: Option<RecurrenceRule>)

  /** The editor's fields. Dates and times are held as the instants they
      denote; the text round trip through date and time inputs is not
      modelled. */
  datatype FormState = FormState(
    title: string,
    start: int,
    end: int,
    description: string,
    category: string,
    priority: Priority,
    location: string,
    link: string,
    contactEmail: string,
    contactPhone: string,
    attendees: string,
    proximityAlertEnabled: bool,
    recurrenceFreq: Freq,
    recurrenceUntil: string)

  /** `isNewEvent`: no event, or an event whose id is missing or empty. */
  predicate IsNewEvent(ev: Option<FormEvent>)
    ensures !IsNewEvent(ev) ==> ev.Some? && ev.value.id.Some? && |ev.value.id.value| > 0
  {
    ev.None? || !Present(ev.value.id)
  }

  /** The Delete button is rendered only for an existing event. */
  predicate DeleteOffered(ev: Option<FormEvent>)
    ensures DeleteOffered(ev) <==> ev.Some? && ev.value.id.Some? && ev.value.id.value != ""
  {
    !IsNewEvent(ev)
  }

  /** The attendee list as the text field shows it. */
  function AttendeesText(attendees: Option<seq<string>>): string
  {
    if attendees.Some? then Join(attendees.value, ", ") else ""
  }

  /** The effect that copies an event into the form. `defaultUntil` is the
      date thirty days from now, which the source reads from the clock. */
  function LoadForm(ev: FormEvent, defaultUntil: string): (f: FormState)
    ensures f.location == "" <==> !Present(ev.data.location)
    ensures f.contactEmail == "" <==> !Present(ev.data.contactEmail)
    ensures f.contactPhone == "" <==> !Present(ev.data.contactPhone)
    ensures ev.recurrenceRule.None? ==> f.recurrenceFreq == Never && f.recurrenceUntil == defaultUntil
  {
    FormState(
      ev.data.title, ev.data.start, ev.data.end,
      ev.data.description.GetOr(""), ev.data.category, ev.data.priority,
      ev.data.location.GetOr(""), ev.data.link.GetOr(""),
      ev.data.contactEmail.GetOr(""), ev.data.contactPhone.GetOr(""),
      AttendeesText(ev.attendees),
      ev.data.proximityAlertEnabled.GetOr(false),
      if ev.recurrenceRule.Some? then ev.recurrenceRule.value.freq else Never,
      if ev.recurrenceRule.Some? && Present(ev.recurrenceRule.value.until) then ev.recurrenceRule.value.until.value
      else defaultUntil)
  }

  /** `canShowSmartAlert`: High or Medium priority, and a location or a
      contact to notify. */
  predicate CanShowSmartAlert(f: FormState)
    ensures CanShowSmartAlert(f) ==>
              f.priority != Low && f.priority != NoPriority && !f.priority.Other?
              && |f.location| + |f.contactEmail| + |f.contactPhone| > 0
  {
    (f.priority == High || f.priority == Medium) &&
    (f.location != "" || f.contactEmail != "" || f.contactPhone != "")
  }

  /** For a freshly loaded event the option shows exactly when the event has
      High or Medium priority and a non-empty location, email or phone. */
  lemma SmartAlertOnLoad(ev: FormEvent, defaultUntil: string)
    ensures CanShowSmartAlert(LoadForm(ev, defaultUntil)) <==>
              (ev.data.priority == High || ev.data.priority == Medium) &&
              (Present(ev.data.location) || Present(ev.data.contactEmail) || Present(ev.data.contactPhone))
  {
  }

  function TrimAll(pieces: seq<string>): (r: seq<string>)
    ensures |r| == |pieces|
    ensures forall i :: 0 <= i < |r| ==> r[i] == Trim(pieces[i])
  {
    seq(|pieces|, i requires 0 <= i < |pieces| => Trim(pieces[i]))
  }

  /** An attendee entry the form can hold without loss: non-empty, free of
      commas and of surrounding whitespace. */
  predicate WellFormedAttendee(a: string)
  {
    a != "" && ',' !in a && IsTrimmed(a)
  }

  /** Trimming adds no character that was not there. */
  lemma TrimKeepsOut(s: string, c: char)
    requires c !in s
    ensures c !in Trim(s)
  {
    var t := Trim(s);
    var n := LeadingSpaces(s);
    assert forall k :: 0 <= k < |t| ==> t[k] == s[n + k];
  }

  /** The test `Boolean` applies to a string. */
  predicate NonEmpty(a: string)
  {
    a != ""
  }

  /** `attendees.split(',').map(e => e.trim()).filter(Boolean)`. */
  function ParseAttendees(text: string): (r: seq<string>)
    ensures forall a :: a in r ==> WellFormedAttendee(a)
  {
    var pieces := Split(text, ',');
    var trimmed := TrimAll(pieces);
    forall i | 0 <= i < |pieces|
      ensures ',' !in trimmed[i]
    {
      TrimKeepsOut(pieces[i], ',');
    }
    Filter(trimmed, NonEmpty)
  }

  /** Text without a comma is one entry: its trimmed form, unless that is
      empty. */
  lemma ParseAttendeesOnePiece(a: string)
    requires ',' !in a
    ensures ParseAttendees(a) == if Trim(a) == "" then [] else [Trim(a)]
  {
    SplitWithoutSeparator(a, ',');
    assert TrimAll([a]) == [Trim(a)] + [];
    FilterCons(Trim(a), [], NonEmpty);
  }

  /** Parsing proceeds comma by comma: the entries before the first comma
      come first, then those after it, in order and with repetitions. */
  lemma ParseAttendeesAfterComma(a: string, b: string)
    requires ',' !in a
    ensures ParseAttendees(a + [','] + b) == ParseAttendees(a) + ParseAttendees(b)
  {
    SplitAfterPiece(a, ',', b);
    SplitWithoutSeparator(a, ',');
    var pb := Split(b, ',');
    assert TrimAll([a] + pb) == TrimAll([a]) + TrimAll(pb);
    FilterAppend(TrimAll([a]), TrimAll(pb), NonEmpty);
  }

  /** Every attendee with one leading space: the pieces `", "` leaves after
      the comma. */
  function Padded(parts: seq<string>): (r: seq<string>)
    ensures |r| == |parts|
    ensures forall i :: 0 <= i < |r| ==> r[i] == " " + parts[i]
  {
    seq(|parts|, i requires 0 <= i < |parts| => " " + parts[i])
  }

  lemma {:induction false} JoinPadded(parts: seq<string>)
    requires |parts| >= 1
    ensures Join(Padded(parts), [',']) == " " + Join(parts, ", ")
  {
    if |parts| > 1 {
      assert Padded(parts)[1..] == Padded(parts[1..]);
      JoinPadded(parts[1..]);
    }
  }

  /** Showing a list in the form and saving it unchanged gives the list back. */
  lemma {:induction false} ParseJoinedAttendees(parts: seq<string>)
    requires forall i :: 0 <= i < |parts| ==> WellFormedAttendee(parts[i])
    ensures ParseAttendees(Join(parts, ", ")) == parts
  {
    var text := Join(parts, ", ");
    if |parts| == 0 {
      assert Split(text, ',') == [""];
      assert TrimAll([""]) == [""];
    } else if |parts| == 1 {
      SplitWithoutSeparator(parts[0], ',');
      TrimTrimmed(parts[0]);
      assert TrimAll([parts[0]]) == parts;
      FilterAll(parts, NonEmpty);
    } else {
      var rest := Padded(parts[1..]);
      JoinPadded(parts[1..]);
      assert text == parts[0] + [','] + Join(rest, [',']);
      SplitAfterPiece(parts[0], ',', Join(rest, [',']));
      assert forall i :: 0 <= i < |rest| ==> ',' !in rest[i] by {
        forall i | 0 <= i < |rest|
          ensures ',' !in rest[i]
        {
          assert parts[1..][i] == parts[i + 1];
          assert rest[i] == [' '] + parts[i + 1];
        }
      }
      JoinSplit(rest, ',');
      assert Split(text, ',') == [parts[0]] + rest;
      forall i | 0 <= i < |parts|
        ensures TrimAll(Split(text, ','))[i] == parts[i]
      {
        if i == 0 {
          TrimTrimmed(parts[0]);
        } else {
          assert Split(text, ',')[i] == [' '] + parts[i];
          TrimAfterSpace(' ', parts[i]);
          TrimTrimmed(parts[i]);
        }
      }
      assert TrimAll(Split(text, ',')) == parts;
      FilterAll(parts, NonEmpty);
    }
  }

  /** `handleSave`: nothing happens without a loaded event; otherwise the
      event is rebuilt from the form over the loaded one, so fields the form
      does not edit (the id, `autoNotified`) carry over. */
  function HandleSave(ev: Option<FormEvent>, f: FormState): (r: Option<FormEvent>)
    ensures ev.None? <==> r.None?
    ensures ev.Some? ==> r.value.id == ev.value.id && r.value.data.autoNotified == ev.value.data.autoNotified
    ensures ev.Some? ==> r.value.recurrenceRule.Some? && r.value.recurrenceRule.value.freq == f.recurrenceFreq
    ensures ev.Some? ==> (r.value.recurrenceRule.value.until.None? <==> f.recurrenceFreq == Never)
    ensures ev.Some? && f.recurrenceFreq != Never ==> r.value.recurrenceRule.value.until == Some(f.recurrenceUntil)
    ensures ev.Some? ==> r.value.attendees == Some(ParseAttendees(f.attendees))
    ensures ev.Some? ==> r.value.data == EventData(
              f.title, f.start, f.end, Some(f.description), f.category, f.priority,
              Some(f.location), Some(f.link), Some(f.contactEmail), Some(f.contactPhone),
              ev.value.data.autoNotified, Some(f.proximityAlertEnabled))
  {
    if ev.None? then None
    else
      var loaded := ev.value;
      var data := loaded.data.(
        title := f.title, start := f.start, end := f.end,
        description := Some(f.description), category := f.category, priority := f.priority,
        location := Some(f.location), link := Some(f.link),
        contactEmail := Some(f.contactEmail), contactPhone := Some(f.contactPhone),
        proximityAlertEnabled := Some(f.proximityAlertEnabled));
      Some(FormEvent(
        loaded.id, data, Some(ParseAttendees(f.attendees)),
        Some(RecurrenceRule(f.recurrenceFreq, if f.recurrenceFreq != Never then Some(f.recurrenceUntil) else None))))
  }

  /** Saving keeps an existing event existing and a new one new, so the
      Delete button's presence survives a save. */
  lemma SaveKeepsIdentity(ev: Option<FormEvent>, f: FormState)
    ensures IsNewEvent(HandleSave(ev, f)) <==> IsNewEvent(ev)
    ensures DeleteOffered(HandleSave(ev, f)) <==> DeleteOffered(ev)
  {
  }

  /** Loading an event and saving the untouched form keeps its title, the
      start and end instants the model's form holds directly, its category,
      priority, id and notification flag, and gives back its
      attendee list whenever every entry is well formed. */
  lemma SaveUneditedForm(ev: FormEvent, defaultUntil: string)
    requires ev.attendees.Some? ==> forall i :: 0 <= i < |ev.attendees.value| ==> WellFormedAttendee(ev.attendees.value[i])
    ensures var r := HandleSave(Some(ev), LoadForm(ev, defaultUntil));
            && r.Some?
            && r.value.id == ev.id
            && r.value.data.title == ev.data.title
            && r.value.data.start == ev.data.start
            && r.value.data.end == ev.data.end
            && r.value.data.category == ev.data.category
            && r.value.data.priority == ev.data.priority
            && r.value.data.autoNotified == ev.data.autoNotified
            && r.value.attendees == Some(ev.attendees.GetOr([]))
  {
    if ev.attendees.Some? {
      ParseJoinedAttendees(ev.attendees.value);
    } else {
      ParseJoinedAttendees([]);
    }
  }

  // ---------------------------------------------------------------------------
  // The date and time text fields

  /** The instant the editor's start (or end) fields give back when event time
      `t` is loaded and saved unedited, as the component is written: the date
      field is the UTC calendar date, the time field the local hours and
      minutes, and saving reads the two back as local time. `utcOffsetMs` is
      local time minus UTC. */
  function FieldsRoundTripAsWritten(t: int, utcOffsetMs: int): (r: int)
    ensures utcOffsetMs == 0 ==> r == FieldsRoundTrip(t)
  {
    CivilTime.DayStart(CivilTime.DateOf(t - utcOffsetMs)) + CivilTime.TimeOfDay(t) / CivilTime.MsPerMinute * CivilTime.MsPerMinute
  }

  /** East of Greenwich the fields move an early-morning event back a day: at
      UTC+2, 01:00 local on 1 January 1970 comes back as 01:00 on 31 December. */
  lemma FieldsRoundTripShiftsDay()
    ensures FieldsRoundTripAsWritten(CivilTime.MsPerHour, 2 * CivilTime.MsPerHour) == CivilTime.MsPerHour - CivilTime.MsPerDay
  {
    CivilTime.InstantDecomposes(-CivilTime.MsPerHour);
  }

  /** The round trip with the date field taken as the local date: the event
      keeps its date and loses only its seconds and milliseconds. */
  function FieldsRoundTrip(t: int): (r: int)
    ensures t - CivilTime.MsPerMinute < r <= t
    ensures CivilTime.DateOf(r) == CivilTime.DateOf(t)
    ensures t % CivilTime.MsPerMinute == 0 ==> r == t
  {
    var r := CivilTime.DayStart(CivilTime.DateOf(t)) + CivilTime.TimeOfDay(t) / CivilTime.MsPerMinute * CivilTime.MsPerMinute;
    MinuteFloorSameDate(t, r);
    r
  }

  /** Rounding an instant down to its minute stays on its date. */
  lemma MinuteFloorSameDate(t: int, r: int)
    requires r == CivilTime.DayStart(CivilTime.DateOf(t)) + CivilTime.TimeOfDay(t) / CivilTime.MsPerMinute * CivilTime.MsPerMinute
    ensures t - CivilTime.MsPerMinute < r <= t
    ensures CivilTime.DateOf(r) == CivilTime.DateOf(t)
    ensures t % CivilTime.MsPerMinute == 0 ==> r == t
  {
    var d := CivilTime.DateOf(t);
    var ms := CivilTime.TimeOfDay(t);
    var start := CivilTime.DayStart(d);
    var floor := ms / CivilTime.MsPerMinute * CivilTime.MsPerMinute;
    CivilTime.InstantDecomposes(t);
    assert t == start + ms;
    assert ms - CivilTime.MsPerMinute < floor <= ms;
    assert start <= r <= CivilTime.DayEnd(d);
    CivilTime.DateOfInstant(r, d);
    MinuteAlignedTime(t);
  }

  /** The model's form is the corrected one: for an event on whole minutes,
      the unedited save gives the instants the corrected fields give back. */
  lemma SaveMatchesFields(ev: FormEvent, defaultUntil: string)
    requires ev.data.start % CivilTime.MsPerMinute == 0 && ev.data.end % CivilTime.MsPerMinute == 0
    requires ev.attendees.Some? ==> forall i :: 0 <= i < |ev.attendees.value| ==> WellFormedAttendee(ev.attendees.value[i])
    ensures var r := HandleSave(Some(ev), LoadForm(ev, defaultUntil));
            && r.Some?
            && r.value.data.start == FieldsRoundTrip(ev.data.start)
            && r.value.data.end == FieldsRoundTrip(ev.data.end)
  {
    SaveUneditedForm(ev, defaultUntil);
  }

  /** A whole-minute instant has a whole-minute time of day. */
  lemma MinuteAlignedTime(t: int)
    ensures t % CivilTime.MsPerMinute == 0 ==> CivilTime.TimeOfDay(t) % CivilTime.MsPerMinute == 0
  {
    if t % CivilTime.MsPerMinute == 0 {
      var a := t / CivilTime.MsPerMinute;
      var k := t / CivilTime.MsPerDay;
      var q := a - 1440 * k;
      assert CivilTime.TimeOfDay(t) == q * CivilTime.MsPerMinute;
      assert (q * CivilTime.MsPerMinute) % CivilTime.MsPerMinute == 0;
    }
  }
}

=== FILE: event_order.dfy ===
/** Ordering events by start time: the comparator `a.start - b.start` passed to
    `Array.prototype.sort`, which is stable, so events with the same start keep
    their collection order. */
module EventOrder {
  import opened Types
  import opened Seqs

  predicate SortedByStart(s: seq<Event>)
  {
    forall i, j :: 0 <= i < j < |s| ==> s[i].data.start <= s[j].data.start
  }

  /** Selects the events that start at instant `k`. */
  function StartsAt(k: int): Event -> bool
  {
    (e: Event) => e.data.start == k
  }

  /** Places `e` in front of the first event that does not start earlier. */
  function InsertByStart(e: Event, s: seq<Event>): (r: seq<Event>)
    requires SortedByStart(s)
    ensures forall x :: x in r ==> x in s || x == e
    ensures SortedByStart(r)
    ensures multiset(r) == multiset(s) + multiset{e}
    decreases |s|
  {
    if |s| == 0 || e.data.start <= s[0].data.start then [e] + s
    else
      var rest := InsertByStart(e, s[1..]);
      assert forall x :: x in rest ==> s[0].data.start <= x.data.start;
      assert s == [s[0]] + s[1..];
      [s[0]] + rest
  }

  /** Stable sort by start time. */
  function SortByStart(s: seq<Event>): (r: seq<Event>)
    ensures SortedByStart(r)
    ensures multiset(r) == multiset(s)
    ensures |r| == |s|
    decreases |s|
  {
    if |s| == 0 then []
    else
      assert s == [s[0]] + s[1..];
      InsertByStart(s[0], SortByStart(s[1..]))
  }

  /** Inserting `e` adds it in front of the events of its own start time and
      leaves every other start time's events as they were. */
  lemma {:induction false} InsertKeepsTies(e: Event, s: seq<Event>, k: int)
    requires SortedByStart(s)
    ensures Filter(InsertByStart(e, s), StartsAt(k))
            == (if e.data.start == k then [e] else []) + Filter(s, StartsAt(k))
    decreases |s|
  {
    var p := StartsAt(k);
    if |s| == 0 || e.data.start <= s[0].data.start {
      FilterCons(e, s, p);
    } else {
      var rest := InsertByStart(e, s[1..]);
      InsertKeepsTies(e, s[1..], k);
      assert InsertByStart(e, s) == [s[0]] + rest;
      FilterCons(s[0], rest, p);
      FilterCons(s[0], s[1..], p);
      assert s == [s[0]] + s[1..];
      var a := if p(s[0]) then [s[0]] else [];
      var b := if p(e) then [e] else [];
      var tail := Filter(s[1..], p);
      assert Filter(InsertByStart(e, s), p) == a + (b + tail);
      assert Filter(s, p) == a + tail;
      SwapEmpty(a, b, tail);
    }
  }

  lemma SwapEmpty<T>(a: seq<T>, b: seq<T>, t: seq<T>)
    requires a == [] || b == []
    ensures a + (b + t) == b + (a + t)
  {
    if a == [] {
      assert a + (b + t) == b + t;
    } else {
      assert b + (a + t) == a + t;
    }
  }

  /** Stability: for every start time, the events with that start time appear
      in the sorted list in the same order as in the input. */
  lemma {:induction false} SortIsStable(s: seq<Event>, k: int)
    ensures Filter(SortByStart(s), StartsAt(k)) == Filter(s, StartsAt(k))
    decreases |s|
  {
    if |s| > 0 {
      SortIsStable(s[1..], k);
      InsertKeepsTies(s[0], SortByStart(s[1..]), k);
    }
  }

  /** A list already in order is returned unchanged. */
  lemma {:induction false} SortSortedIsIdentity(s: seq<Event>)
    requires SortedByStart(s)
    ensures SortByStart(s) == s
    decreases |s|
  {
    if |s| > 0 {
      assert SortedByStart(s[1..]);
      SortSortedIsIdentity(s[1..]);
    }
  }
}

=== FILE: event_review.dfy ===
/** The review step of components/EventReviewModal.tsx: events extracted from
    an upload become selectable items with a temporary id; the user toggles,
    edits and confirms them. */
module EventReview {
  import opened Types
  import opened Text

  /** `ReviewableEvent`: an event without an id, plus the review bookkeeping. */
  datatype ReviewItem = ReviewItem(data: EventData, tempId: string, isSelected: bool)

  /** The temporary id `${Date.now()}-${index}`; the clock reading is a parameter. */
  function TempId(stamp: nat, index: nat): (s: string)
    ensures |NatToString(stamp)| + 2 <= |s| && s[|NatToString(stamp)|] == '-'
    ensures forall i :: 0 <= i < |s| && i != |NatToString(stamp)| ==> IsDigit(s[i])
  {
    var a, b := NatToString(stamp), NatToString(index);
    var s := a + "-" + b;
    assert forall i :: |a| < i < |s| ==> s[i] == b[i - |a| - 1];
    s
  }

  /** Within one batch the index alone tells temporary ids apart. */
  lemma TempIdInjective(stamp: nat, i: nat, j: nat)
    ensures TempId(stamp, i) == TempId(stamp, j) <==> i == j
  {
    var p := NatToString(stamp) + "-";
    if TempId(stamp, i) == TempId(stamp, j) {
      assert NatToString(i) == TempId(stamp, i)[|p|..];
      assert NatToString(j) == TempId(stamp, j)[|p|..];
      NatToStringInjective(i, j);
    }
  }

  /** A temporary id determines both the clock reading and the index: the
      dash is its only non-digit, so it marks where the reading ends. */
  lemma TempIdDetermines(a: nat, i: nat, b: nat, j: nat)
    ensures TempId(a, i) == TempId(b, j) <==> a == b && i == j
  {
    var s := TempId(a, i);
    var la, lb := |NatToString(a)|, |NatToString(b)|;
    if s == TempId(b, j) {
      assert la == lb;
      assert NatToString(a) == s[..la] == NatToString(b);
      assert NatToString(i) == s[la + 1..] == NatToString(j);
      NatToStringInjective(a, b);
      NatToStringInjective(i, j);
    }
  }

  /** Opening the modal: every incoming event becomes a selected item. The
      clock is read once per item, so `stamps[i]` is the reading for item `i`;
      the ids differ whatever the readings are. */
  function InitReview(drafts: seq<EventData>, stamps: seq<nat>): (r: seq<ReviewItem>)
    requires |stamps| == |drafts|
    ensures |r| == |drafts|
    ensures forall i :: 0 <= i < |r| ==> r[i].data == drafts[i] && r[i].isSelected && r[i].tempId == TempId(stamps[i], i)
    ensures forall i, j :: 0 <= i < |r| && 0 <= j < |r| && i != j ==> r[i].tempId != r[j].tempId
  {
    var r := seq(|drafts|, i requires 0 <= i < |drafts| => ReviewItem(drafts[i], TempId(stamps[i], i), true));
    forall i, j | 0 <= i < |r| && 0 <= j < |r| && i != j
      ensures r[i].tempId != r[j].tempId
    {
      TempIdDetermines(stamps[i], i, stamps[j], j);
    }
    r
  }

  /** `selectedCount`. */
  function SelectedCount(items: seq<ReviewItem>): (n: nat)
    ensures n <= |items|
  {
    if |items| == 0 then 0
    else (if items[0].isSelected then 1 else 0) + SelectedCount(items[1..])
  }

  /** The count reaches the length exactly when every item is selected. */
  lemma {:induction false} CountIsLengthIffAllSelected(items: seq<ReviewItem>)
    ensures SelectedCount(items) == |items| <==> forall i :: 0 <= i < |items| ==> items[i].isSelected
  {
    if |items| > 0 {
      CountIsLengthIffAllSelected(items[1..]);
      assert forall i :: 1 <= i < |items| ==> items[i] == items[1..][i - 1];
    }
  }

  /** The count is zero exactly when no item is selected. */
  lemma {:induction false} CountIsZeroIffNoneSelected(items: seq<ReviewItem>)
    ensures SelectedCount(items) == 0 <==> forall i :: 0 <= i < |items| ==> !items[i].isSelected
  {
    if |items| > 0 {
      CountIsZeroIffNoneSelected(items[1..]);
      assert forall i :: 1 <= i < |items| ==> items[i] == items[1..][i - 1];
    }
  }

  /** `isAllSelected`. */
  predicate IsAllSelected(items: seq<ReviewItem>)
    ensures IsAllSelected(items) ==> |items| > 0 && forall i :: 0 <= i < |items| ==> items[i].isSelected
  {
    CountIsLengthIffAllSelected(items);
    SelectedCount(items) == |items| && |items| > 0
  }

  /** The select-all box is checked iff the list is non-empty and every item
      is selected. */
  lemma AllSelectedIff(items: seq<ReviewItem>)
    ensures IsAllSelected(items) <==> |items| > 0 && forall i :: 0 <= i < |items| ==> items[i].isSelected
  {
    CountIsLengthIffAllSelected(items);
  }

  /** Every item with its selection set to `b`. */
  function SetAll(items: seq<ReviewItem>, b: bool): (r: seq<ReviewItem>)
    ensures |r| == |items|
    ensures forall i :: 0 <= i < |r| ==> r[i] == items[i].(isSelected := b)
  {
    seq(|items|, i requires 0 <= i < |items| => items[i].(isSelected := b))
  }

  /** `handleToggleSelectAll`: from a partial (or empty) selection select
      everything; from a full selection deselect everything. */
  function ToggleSelectAll(items: seq<ReviewItem>): (r: seq<ReviewItem>)
    ensures |r| == |items|
    ensures forall i :: 0 <= i < |r| ==> r[i].data == items[i].data && r[i].tempId == items[i].tempId
    ensures IsAllSelected(items) ==> SelectedCount(r) == 0
    ensures !IsAllSelected(items) ==> SelectedCount(r) == |items|
    ensures |items| > 0 ==> (IsAllSelected(r) <==> !IsAllSelected(items))
  {
    var r := SetAll(items, !IsAllSelected(items));
    CountIsLengthIffAllSelected(r);
    CountIsZeroIffNoneSelected(r);
    r
  }

  /** `handleToggleSelect`: flip the selection of the items with that id. */
  function ToggleSelect(items: seq<ReviewItem>, tempId: string): (r: seq<ReviewItem>)
    ensures |r| == |items|
    ensures forall i :: 0 <= i < |r| && items[i].tempId != tempId ==> r[i] == items[i]
    ensures forall i :: 0 <= i < |r| && items[i].tempId == tempId ==>
              r[i].isSelected == !items[i].isSelected && r[i].data == items[i].data && r[i].tempId == tempId
  {
    seq(|items|, i requires 0 <= i < |items| =>
      if items[i].tempId == tempId then items[i].(isSelected := !items[i].isSelected) else items[i])
  }

  /** Toggling the same item twice restores the list. */
  lemma ToggleTwice(items: seq<ReviewItem>, tempId: string)
    ensures ToggleSelect(ToggleSelect(items, tempId), tempId) == items
  {
  }

  /** With distinct ids, toggling an unselected item adds one to the count. */
  lemma {:induction false} ToggleSelectCount(items: seq<ReviewItem>, k: nat)
    requires k < |items| && !items[k].isSelected
    requires forall i :: 0 <= i < |items| && i != k ==> items[i].tempId != items[k].tempId
    ensures SelectedCount(ToggleSelect(items, items[k].tempId)) == SelectedCount(items) + 1
  {
    var r := ToggleSelect(items, items[k].tempId);
    if k == 0 {
      assert r[1..] == items[1..];
    } else {
      assert ToggleSelect(items[1..], items[k].tempId) == r[1..];
      ToggleSelectCount(items[1..], k - 1);
    }
  }

  /** `handleEventUpdate`: replace the items carrying the edited item's id. */
  function UpdateItem(items: seq<ReviewItem>, updated: ReviewItem): (r: seq<ReviewItem>)
    ensures |r| == |items|
    ensures forall i :: 0 <= i < |r| ==> r[i] == if items[i].tempId == updated.tempId then updated else items[i]
  {
    seq(|items|, i requires 0 <= i < |items| => if items[i].tempId == updated.tempId then updated else items[i])
  }

  /** With distinct ids, an edit lands on exactly the item it came from. */
  lemma UpdateReplacesOne(items: seq<ReviewItem>, k: nat, updated: ReviewItem)
    requires k < |items| && updated.tempId == items[k].tempId
    requires forall i :: 0 <= i < |items| && i != k ==> items[i].tempId != items[k].tempId
    ensures UpdateItem(items, updated) == items[k := updated]
  {
  }

  /** `handleConfirm`: the selected events in list order, review fields dropped. */
  function Confirm(items: seq<ReviewItem>): (r: seq<EventData>)
    ensures |r| == SelectedCount(items)
    ensures forall x :: x in r ==> exists i :: 0 <= i < |items| && items[i].isSelected && items[i].data == x
  {
    if |items| == 0 then []
    else
      var rest := Confirm(items[1..]);
      assert forall x :: x in rest ==> exists i :: 1 <= i < |items| && items[i].isSelected && items[i].data == x by {
        forall x | x in rest
          ensures exists i :: 1 <= i < |items| && items[i].isSelected && items[i].data == x
        {
          var j :| 0 <= j < |items[1..]| && items[1..][j].isSelected && items[1..][j].data == x;
          assert items[j + 1] == items[1..][j];
        }
      }
      (if items[0].isSelected then [items[0].data] else []) + rest
  }

  /** Confirming works item by item: the events of a concatenation are the
      events of each part, in order. */
  lemma {:induction false} ConfirmAppend(a: seq<ReviewItem>, b: seq<ReviewItem>)
    ensures Confirm(a + b) == Confirm(a) + Confirm(b)
    decreases |a|
  {
    if |a| == 0 {
      assert a + b == b;
    } else {
      assert (a + b)[0] == a[0];
      assert (a + b)[1..] == a[1..] + b;
      ConfirmAppend(a[1..], b);
    }
  }

  /** A single item contributes its event exactly when it is selected. */
  lemma ConfirmOne(x: ReviewItem)
    ensures Confirm([x]) == if x.isSelected then [x.data] else []
  {
    assert [x][1..] == [];
  }

  /** Each selected item contributes its event to the confirmed list. */
  lemma {:induction false} ConfirmKeepsSelected(items: seq<ReviewItem>, k: nat)
    requires k < |items| && items[k].isSelected
    ensures items[k].data in Confirm(items)
  {
    if k > 0 {
      ConfirmKeepsSelected(items[1..], k - 1);
    }
  }

  /** When everything is selected, confirm returns the events in order. */
  lemma {:induction false} ConfirmAllSelected(items: seq<ReviewItem>)
    requires forall i :: 0 <= i < |items| ==> items[i].isSelected
    ensures |Confirm(items)| == |items|
    ensures forall i :: 0 <= i < |items| ==> Confirm(items)[i] == items[i].data
  {
    CountIsLengthIffAllSelected(items);
    if |items| > 0 {
      ConfirmAllSelected(items[1..]);
    }
  }

  /** Confirming straight after opening hands back the extracted events. */
  lemma ConfirmAfterInit(drafts: seq<EventData>, stamps: seq<nat>)
    requires |stamps| == |drafts|
    ensures Confirm(InitReview(drafts, stamps)) == drafts
  {
    ConfirmAllSelected(InitReview(drafts, stamps));
  }

  /** The "Add" button is enabled iff something is selected, that is iff
      confirming would add at least one event. */
  predicate ConfirmEnabled(items: seq<ReviewItem>)
  {
    SelectedCount(items) != 0
  }

  lemma ConfirmEnabledIffNonEmpty(items: seq<ReviewItem>)
    ensures ConfirmEnabled(items) <==> |Confirm(items)| > 0
    ensures ConfirmEnabled(items) <==> exists i :: 0 <= i < |items| && items[i].isSelected
  {
    CountIsZeroIffNoneSelected(items);
  }
}

=== FILE: event_store.dfy ===
/** The event collection held by the application shell (App.tsx): conflict
    detection on save, update-or-append, delete, batch add, the three ways out
    of a detected conflict, marking an event as notified, merging AI-assigned
    priorities, and cleaning a phone number for an SMS link.

    Each handler is a pure function from the current collection (and pending
    conflict) to the next one; React's asynchronous state updates are not
    modelled. Ids the application draws from `Date.now()` and `Math.random()`
    are parameters. */
module EventStore {
  import opened Wrappers
  import opened Types
  import opened Interval
  import opened Seqs
  import Text

  /** `e` blocks saving `candidate`: a different event whose span overlaps it. */
  predicate Conflicts(e: Event, candidate: Event)
  {
    e.id != candidate.id && IsOverlapping(e, candidate)
  }

  /** Index of the first conflicting event at or after position `k`. */
  function FirstConflictFrom(events: seq<Event>, candidate: Event, k: nat): (r: Option<nat>)
    requires k <= |events|
    ensures r.Some? ==> k <= r.value < |events| && Conflicts(events[r.value], candidate)
    ensures r.Some? ==> forall j :: k <= j < r.value ==> !Conflicts(events[j], candidate)
    ensures r.None? ==> forall j :: k <= j < |events| ==> !Conflicts(events[j], candidate)
    decreases |events| - k
  {
    if k == |events| then None
    else if Conflicts(events[k], candidate) then Some(k)
    else FirstConflictFrom(events, candidate, k + 1)
  }

  /** `events.find(e => e.id !== eventToSave.id && isOverlapping(e, eventToSave))`:
      the first event in collection order that overlaps the candidate and is not
      the candidate itself. */
  function FindConflict(events: seq<Event>, candidate: Event): (r: Option<Event>)
    ensures r.None? <==> forall i :: 0 <= i < |events| ==> !Conflicts(events[i], candidate)
    ensures r.Some? ==> r.value.id != candidate.id && IsOverlapping(r.value, candidate)
    ensures r.Some? ==> exists i :: 0 <= i < |events| && events[i] == r.value
                                     && forall j :: 0 <= j < i ==> !Conflicts(events[j], candidate)
  {
    match FirstConflictFrom(events, candidate, 0)
    case Some(i) => Some(events[i])
    case None => None
  }

  /** `saveEvent`: an event whose id is already stored replaces every entry with
      that id in place; any other event is appended under the fresh id. */
  function SaveEvent(events: seq<Event>, e: Event, freshId: string): (r: seq<Event>)
    ensures HasId(events, e.id) ==> |r| == |events|
    ensures HasId(events, e.id) ==> forall i :: 0 <= i < |events| ==>
              (events[i].id == e.id ==> r[i] == e) && (events[i].id != e.id ==> r[i] == events[i])
    ensures !HasId(events, e.id) ==> |r| == |events| + 1 && r[..|events|] == events
    ensures !HasId(events, e.id) ==> r[|events|] == Event(freshId, e.data)
  {
    if HasId(events, e.id) then
      seq(|events|, i requires 0 <= i < |events| => if events[i].id == e.id then e else events[i])
    else
      events + [Event(freshId, e.data)]
  }

  /** The id under which `saveEvent` stores `e`. */
  function SavedId(events: seq<Event>, e: Event, freshId: string): string
  {
    if HasId(events, e.id) then e.id else freshId
  }

  /** Saving keeps ids unique when the fresh id is unused, and afterwards the
      saved data is stored under SavedId. */
  lemma SaveKeepsIdsUnique(events: seq<Event>, e: Event, freshId: string)
    requires UniqueIds(events) && !HasId(events, freshId)
    ensures UniqueIds(SaveEvent(events, e, freshId))
    ensures exists i :: 0 <= i < |SaveEvent(events, e, freshId)|
              && SaveEvent(events, e, freshId)[i] == Event(SavedId(events, e, freshId), e.data)
  {
    var r := SaveEvent(events, e, freshId);
    if HasId(events, e.id) {
      var k :| 0 <= k < |events| && events[k].id == e.id;
      assert r[k] == e;
      forall i, j | 0 <= i < |r| && 0 <= j < |r| && i != j
        ensures r[i].id != r[j].id
      {
        assert r[i].id == events[i].id && r[j].id == events[j].id;
      }
    } else {
      assert r[|events|] == Event(freshId, e.data);
      forall i, j | 0 <= i < |r| && 0 <= j < |r| && i != j
        ensures r[i].id != r[j].id
      {
        if i < |events| && j < |events| {
          assert r[i] == events[i] && r[j] == events[j];
        } else if i < |events| {
          assert r[i] == events[i];
        } else {
          assert r[j] == events[j];
        }
      }
    }
  }

  /** A conflict found on save, waiting for the user's choice. */
  datatype ConflictData = ConflictData(eventToSave: Event, conflictingEvent: Event)

  datatype AppState = AppState(events: seq<Event>, conflict: Option<ConflictData>)

  /** `handleSaveEvent`: on a conflict the collection is left alone and the
      conflict is put to the user; otherwise the candidate is saved at once. */
  function HandleSaveEvent(s: AppState, candidate: Event, freshId: string): (r: AppState)
    ensures FindConflict(s.events, candidate).Some? ==>
              r.events == s.events
              && r.conflict == Some(ConflictData(candidate, FindConflict(s.events, candidate).value))
    ensures FindConflict(s.events, candidate).None? ==>
              r.events == SaveEvent(s.events, candidate, freshId) && r.conflict == s.conflict
  {
    match FindConflict(s.events, candidate)
    case Some(c) => s.(conflict := Some(ConflictData(candidate, c)))
    case None => s.(events := SaveEvent(s.events, candidate, freshId))
  }

  /** A save that goes through immediately never introduces an overlap: the
      stored candidate overlaps no event held under another id. */
  lemma SaveWithoutConflictHasNoOverlap(s: AppState, candidate: Event, freshId: string)
    requires !HasId(s.events, freshId)
    requires HandleSaveEvent(s, candidate, freshId).conflict == s.conflict
    requires s.conflict.None?
    ensures var r := HandleSaveEvent(s, candidate, freshId).events;
            forall i :: 0 <= i < |r| && r[i].id != SavedId(s.events, candidate, freshId) ==>
              !IsOverlapping(r[i], candidate)
  {
    var r := HandleSaveEvent(s, candidate, freshId).events;
    assert FindConflict(s.events, candidate).None?;
    forall i | 0 <= i < |r| && r[i].id != SavedId(s.events, candidate, freshId)
      ensures !IsOverlapping(r[i], candidate)
    {
      if HasId(s.events, candidate.id) {
        assert r[i] == s.events[i];
        assert !Conflicts(s.events[i], candidate);
      } else {
        assert i < |s.events|;
        assert r[i] == s.events[i];
        assert s.events[i].id != candidate.id;
        assert !Conflicts(s.events[i], candidate);
      }
    }
  }

  /** The test `e.id !== id` of the delete filter. */
  function NotId(id: string): Event -> bool
  {
    (e: Event) => e.id != id
  }

  /** `handleDeleteEvent`: removes every event with the id and nothing else,
      keeping the survivors in order. */
  function HandleDeleteEvent(events: seq<Event>, id: string): (r: seq<Event>)
    ensures !HasId(r, id)
    ensures forall e :: multiset(r)[e] == if e.id != id then multiset(events)[e] else 0
  {
    FilterMultiset(events, NotId(id));
    var r := Filter(events, NotId(id));
    assert forall i :: 0 <= i < |r| ==> r[i] in r;
    r
  }

  /** Deleting works event by event: the survivors of a concatenation are the
      survivors of each part, in order. */
  lemma DeleteAppend(a: seq<Event>, b: seq<Event>, id: string)
    ensures HandleDeleteEvent(a + b, id) == HandleDeleteEvent(a, id) + HandleDeleteEvent(b, id)
  {
    FilterAppend(a, b, NotId(id));
  }

  /** A single event survives exactly when its id differs. */
  lemma DeleteOne(e: Event, id: string)
    ensures HandleDeleteEvent([e], id) == if e.id != id then [e] else []
  {
    FilterCons(e, [], NotId(id));
  }

  /** Deleting a newly created event undoes its creation: the collection is
      back to what it was before the save. */
  lemma {:induction false} DeleteUndoesNewSave(events: seq<Event>, e: Event, freshId: string)
    requires !HasId(events, e.id) && !HasId(events, freshId)
    ensures HandleDeleteEvent(SaveEvent(events, e, freshId), freshId) == events
  {
    var added := Event(freshId, e.data);
    assert SaveEvent(events, e, freshId) == events + [added];
    DeleteAppend(events, [added], freshId);
    DeleteOne(added, freshId);
    FilterAll(events, NotId(freshId));
  }

  /** `addEvents`: appends the drafts, in order, each under its own new id. */
  function AddEvents(events: seq<Event>, drafts: seq<EventData>, ids: seq<string>): (r: seq<Event>)
    requires |ids| == |drafts|
    ensures |r| == |events| + |drafts| && r[..|events|] == events
    ensures forall i :: 0 <= i < |drafts| ==> r[|events| + i] == Event(ids[i], drafts[i])
  {
    events + seq(|drafts|, i requires 0 <= i < |drafts| => Event(ids[i], drafts[i]))
  }

  /** New ids that are distinct and unused keep the collection's ids unique. */
  lemma AddEventsKeepsIdsUnique(events: seq<Event>, drafts: seq<EventData>, ids: seq<string>)
    requires |ids| == |drafts| && UniqueIds(events)
    requires forall i, j :: 0 <= i < |ids| && 0 <= j < |ids| && i != j ==> ids[i] != ids[j]
    requires forall i :: 0 <= i < |ids| ==> !HasId(events, ids[i])
    ensures UniqueIds(AddEvents(events, drafts, ids))
  {
    var r := AddEvents(events, drafts, ids);
    var n := |events|;
    forall i, j | 0 <= i < |r| && 0 <= j < |r| && i != j
      ensures r[i].id != r[j].id
    {
      if i < n && j < n {
        assert r[i] == events[i] && r[j] == events[j];
      } else if i < n {
        assert r[j].id == ids[j - n] && r[i] == events[i];
      } else if j < n {
        assert r[i].id == ids[i - n] && r[j] == events[j];
      } else {
        assert r[i].id == ids[i - n] && r[j].id == ids[j - n];
      }
    }
  }

  /** The map in `handleAcceptSuggestion`: the event with the suggested id gets
      the suggested start and end; nothing else changes. */
  function Reschedule(events: seq<Event>, id: string, newStart: int, newEnd: int): (r: seq<Event>)
    ensures |r| == |events|
    ensures forall i :: 0 <= i < |r| ==> r[i].id == events[i].id
    ensures forall i :: 0 <= i < |r| && events[i].id == id ==>
              r[i].data == events[i].data.(start := newStart, end := newEnd)
    ensures forall i :: 0 <= i < |r| && events[i].id != id ==> r[i] == events[i]
  {
    seq(|events|, i requires 0 <= i < |events| =>
      if events[i].id == id then Event(id, events[i].data.(start := newStart, end := newEnd)) else events[i])
  }

  /** `handleAcceptSuggestion` as written: reschedule the stored event the
      suggestion names, then save the pending candidate exactly as submitted. */
  function AcceptSuggestion(s: AppState, eventToUpdateId: string, newStart: int, newEnd: int, freshId: string): (r: AppState)
    ensures r.conflict.None?
    ensures s.conflict.None? ==> r.events == Reschedule(s.events, eventToUpdateId, newStart, newEnd)
    ensures s.conflict.Some? ==>
              r.events == SaveEvent(Reschedule(s.events, eventToUpdateId, newStart, newEnd), s.conflict.value.eventToSave, freshId)
  {
    var updated := Reschedule(s.events, eventToUpdateId, newStart, newEnd);
    match s.conflict
    case Some(c) => AppState(SaveEvent(updated, c.eventToSave, freshId), None)
    case None => AppState(updated, None)
  }

  /** When the suggestion names the candidate itself and the candidate is a new
      event (its empty id is not stored), accepting leaves the candidate at its
      submitted time, still overlapping the event it conflicted with. */
  lemma AcceptSuggestionLosesCandidateMove()
    ensures var kept := Event("b", EventData("Review", 0, 60, None, "Meeting", High, None, None, None, None, None, None));
            var candidate := Event("", EventData("Gym", 30, 90, None, "Personal", NoPriority, None, None, None, None, None, None));
            var s := AppState([kept], Some(ConflictData(candidate, kept)));
            var r := AcceptSuggestion(s, "", 60, 120, "fresh");
            r.events == [kept, Event("fresh", candidate.data)] && IsOverlapping(r.events[1], kept)
  {
    var kept := Event("b", EventData("Review", 0, 60, None, "Meeting", High, None, None, None, None, None, None));
    var candidate := Event("", EventData("Gym", 30, 90, None, "Personal", NoPriority, None, None, None, None, None, None));
    var s := AppState([kept], Some(ConflictData(candidate, kept)));
    assert Reschedule(s.events, "", 60, 120) == [kept];
    assert !HasId([kept], "");
  }

  /** The pending candidate as the corrected accept saves it: moved when the
      suggestion names it. */
  function MovedCandidate(c: ConflictData, eventToUpdateId: string, newStart: int, newEnd: int): Event
  {
    if c.eventToSave.id == eventToUpdateId
    then c.eventToSave.(data := c.eventToSave.data.(start := newStart, end := newEnd))
    else c.eventToSave
  }

  /** Accepting a suggestion with the move applied to whichever event it names:
      a stored event, or the pending candidate. */
  function AcceptSuggestionFixed(s: AppState, eventToUpdateId: string, newStart: int, newEnd: int, freshId: string): (r: AppState)
    ensures r.conflict.None?
    ensures s.conflict.None? ==> r.events == Reschedule(s.events, eventToUpdateId, newStart, newEnd)
    ensures s.conflict.Some? && s.conflict.value.eventToSave.id != eventToUpdateId ==>
              r == AcceptSuggestion(s, eventToUpdateId, newStart, newEnd, freshId)
  {
    var updated := Reschedule(s.events, eventToUpdateId, newStart, newEnd);
    match s.conflict
    case Some(c) => AppState(SaveEvent(updated, MovedCandidate(c, eventToUpdateId, newStart, newEnd), freshId), None)
    case None => AppState(updated, None)
  }

  /** The correction only moves the candidate first: it is accepting as
      written with the candidate already at the suggested times when the
      suggestion names it. So the candidate is still saved, and when the
      suggestion names another event the two versions agree. */
  lemma AcceptFixedAgrees(s: AppState, eventToUpdateId: string, newStart: int, newEnd: int, freshId: string)
    ensures s.conflict.Some? ==>
              AcceptSuggestionFixed(s, eventToUpdateId, newStart, newEnd, freshId)
              == AcceptSuggestion(s.(conflict := Some(s.conflict.value.(eventToSave := MovedCandidate(s.conflict.value, eventToUpdateId, newStart, newEnd)))),
                                  eventToUpdateId, newStart, newEnd, freshId)
    ensures s.conflict.None? || s.conflict.value.eventToSave.id != eventToUpdateId ==>
              AcceptSuggestionFixed(s, eventToUpdateId, newStart, newEnd, freshId)
              == AcceptSuggestion(s, eventToUpdateId, newStart, newEnd, freshId)
  {
  }

  /** With the correction, the event the suggestion names ends up at the
      suggested times: every stored event with that id, and the candidate when
      the suggestion names the candidate. */
  lemma AcceptFixedMovesNamedEvent(s: AppState, eventToUpdateId: string, newStart: int, newEnd: int, freshId: string)
    ensures var r := AcceptSuggestionFixed(s, eventToUpdateId, newStart, newEnd, freshId).events;
            forall i :: 0 <= i < |s.events| && s.events[i].id == eventToUpdateId ==>
              r[i].data.start == newStart && r[i].data.end == newEnd
    ensures var r := AcceptSuggestionFixed(s, eventToUpdateId, newStart, newEnd, freshId).events;
            s.conflict.Some? && s.conflict.value.eventToSave.id == eventToUpdateId ==>
              exists i :: 0 <= i < |r| && r[i].data == s.conflict.value.eventToSave.data.(start := newStart, end := newEnd)
  {
    var updated := Reschedule(s.events, eventToUpdateId, newStart, newEnd);
    var r := AcceptSuggestionFixed(s, eventToUpdateId, newStart, newEnd, freshId).events;
    if s.conflict.Some? {
      var cand := MovedCandidate(s.conflict.value, eventToUpdateId, newStart, newEnd);
      assert r == SaveEvent(updated, cand, freshId);
      forall i | 0 <= i < |s.events| && s.events[i].id == eventToUpdateId
        ensures r[i].data.start == newStart && r[i].data.end == newEnd
      {
        assert updated[i].id == eventToUpdateId;
        if HasId(updated, cand.id) && updated[i].id == cand.id {
          assert r[i] == cand;
        } else {
          assert r[i] == updated[i];
        }
      }
      if s.conflict.value.eventToSave.id == eventToUpdateId {
        if HasId(updated, cand.id) {
          var k :| 0 <= k < |updated| && updated[k].id == cand.id;
          assert r[k] == cand;
        } else {
          assert r[|updated|] == Event(freshId, cand.data);
        }
      }
    }
  }

  /** `handleIgnoreConflict`: the candidate is saved even though it overlaps. */
  function IgnoreConflict(s: AppState, freshId: string): (r: AppState)
    ensures r.conflict.None?
    ensures s.conflict.None? ==> r.events == s.events
    ensures s.conflict.Some? ==> r.events == SaveEvent(s.events, s.conflict.value.eventToSave, freshId)
  {
    match s.conflict
    case Some(c) => AppState(SaveEvent(s.events, c.eventToSave, freshId), None)
    case None => AppState(s.events, None)
  }

  /** `handleCancelConflict`: the candidate is dropped. */
  function CancelConflict(s: AppState): (r: AppState)
    ensures r.conflict.None? && r.events == s.events
  {
    AppState(s.events, None)
  }

  /** The three ways out of a conflict found on save: ignoring stores the
      candidate beside the event it overlaps, cancelling restores the collection
      as it was, and either way nothing is left pending. */
  lemma ConflictOutcomes(s: AppState, candidate: Event, freshId: string, saveId: string)
    requires s.conflict.None?
    requires FindConflict(s.events, candidate).Some?
    ensures var pending := HandleSaveEvent(s, candidate, freshId);
            && CancelConflict(pending) == s
            && IgnoreConflict(pending, saveId).events == SaveEvent(s.events, candidate, saveId)
            && IgnoreConflict(pending, saveId).conflict.None?
  {
  }

  /** The update in `handlePotentialLate`: the event with the id is marked as
      notified; every other event and every other field stays as it was. */
  function MarkAutoNotified(events: seq<Event>, id: string): (r: seq<Event>)
    ensures |r| == |events|
    ensures forall i :: 0 <= i < |r| ==> r[i].id == events[i].id
    ensures forall i :: 0 <= i < |r| && events[i].id == id ==>
              r[i].data == events[i].data.(autoNotified := Some(true))
    ensures forall i :: 0 <= i < |r| && events[i].id != id ==> r[i] == events[i]
  {
    seq(|events|, i requires 0 <= i < |events| =>
      if events[i].id == id then Event(id, events[i].data.(autoNotified := Some(true))) else events[i])
  }

  /** One entry of the AI's priority answer (`{id, priority}`). The response
      schema puts no enumeration on `priority`, so it is any string. */
  datatype PriorityAssignment = PriorityAssignment(id: string, priority: string)

  /** Index of the first answer entry for `id` at or after position `k`. */
  function FirstAssignmentFrom(assignments: seq<PriorityAssignment>, id: string, k: nat): (r: Option<nat>)
    requires k <= |assignments|
    ensures r.Some? ==> k <= r.value < |assignments| && assignments[r.value].id == id
    ensures r.Some? ==> forall j :: k <= j < r.value ==> assignments[j].id != id
    ensures r.None? ==> forall j :: k <= j < |assignments| ==> assignments[j].id != id
    decreases |assignments| - k
  {
    if k == |assignments| then None
    else if assignments[k].id == id then Some(k)
    else FirstAssignmentFrom(assignments, id, k + 1)
  }

  /** `priorities.find(p => p.id === id)`, reduced to the label it carries. */
  function FindAssignment(assignments: seq<PriorityAssignment>, id: string): (r: Option<string>)
    ensures r.None? <==> forall k :: 0 <= k < |assignments| ==> assignments[k].id != id
    ensures r.Some? ==> exists k :: 0 <= k < |assignments| && assignments[k] == PriorityAssignment(id, r.value)
                                    && forall j :: 0 <= j < k ==> assignments[j].id != id
  {
    match FirstAssignmentFrom(assignments, id, 0)
    case Some(k) => Some(assignments[k].priority)
    case None => None
  }

  /** The merge in `handlePrioritize`: each event takes the priority the
      first answer entry with its id names (the unchecked `as Priority` cast);
      events without an entry, and every other field, are untouched. */
  function MergePriorities(events: seq<Event>, assignments: seq<PriorityAssignment>): (r: seq<Event>)
    ensures |r| == |events|
    ensures forall i :: 0 <= i < |r| ==> r[i].id == events[i].id
    ensures forall i :: 0 <= i < |r| ==>
              match FindAssignment(assignments, events[i].id)
              case Some(name) => r[i].data == events[i].data.(priority := PriorityOfLabel(name))
              case None => r[i] == events[i]
    ensures forall i :: 0 <= i < |r| && FindAssignment(assignments, events[i].id).Some? ==>
              Label(r[i].data.priority) == FindAssignment(assignments, events[i].id).value
  {
    seq(|events|, i requires 0 <= i < |events| =>
      match FindAssignment(assignments, events[i].id)
      case Some(name) => events[i].(data := events[i].data.(priority := PriorityOfLabel(name)))
      case None => events[i])
  }

  /** An empty answer leaves the collection as it was. */
  lemma MergeNothingIsIdentity(events: seq<Event>)
    ensures MergePriorities(events, []) == events
  {
  }

  /** The characters the pattern `[^\d+]` spares: ASCII digits and '+'. */
  predicate IsPhoneChar(c: char)
  {
    Text.IsDigit(c) || c == '+'
  }

  /** `recipient.replace(/[^\d+]/g, '')`: keeps the ASCII digits and '+' signs
      of the number, in their original order. */
  function SanitizePhone(s: string): (r: string)
    ensures forall i :: 0 <= i < |r| ==> IsPhoneChar(r[i])
    ensures forall c :: multiset(r)[c] == if IsPhoneChar(c) then multiset(s)[c] else 0
  {
    FilterMultiset(s, IsPhoneChar);
    Filter(s, IsPhoneChar)
  }

  /** Cleaning works character by character, so the kept characters stay in
      their original order. */
  lemma SanitizePhoneAppend(a: string, b: string)
    ensures SanitizePhone(a + b) == SanitizePhone(a) + SanitizePhone(b)
  {
    FilterAppend(a, b, IsPhoneChar);
  }

  /** A single character is kept exactly when it is a digit or '+'. */
  lemma SanitizePhoneChar(c: char)
    ensures SanitizePhone([c]) == if IsPhoneChar(c) then [c] else []
  {
    FilterCons(c, [], IsPhoneChar);
  }

  /** Cleaning is idempotent, and a number made only of digits and '+' is kept whole. */
  lemma SanitizePhoneIdempotent(s: string)
    ensures SanitizePhone(SanitizePhone(s)) == SanitizePhone(s)
    ensures (forall i :: 0 <= i < |s| ==> IsPhoneChar(s[i])) ==> SanitizePhone(s) == s
  {
    FilterIdempotent(s, IsPhoneChar);
    if forall i :: 0 <= i < |s| ==> IsPhoneChar(s[i]) {
      FilterAll(s, IsPhoneChar);
    }
  }
}

=== FILE: interval.dfy ===
/** Interval overlap (utils/time.ts). */
module Interval {
  import opened Types

  /** Two half-open spans [aStart, aEnd) and [bStart, bEnd) share an instant. */
  predicate SpansOverlap(aStart: int, aEnd: int, bStart: int, bEnd: int)
  {
    aStart < bEnd && aEnd > bStart
  }

  /** `isOverlapping`: strict comparisons on both sides, so touching events do
      not overlap. */
  predicate IsOverlapping(a: Event, b: Event)
    ensures IsOverlapping(a, b) ==> a.data.start < a.data.end || b.data.start < b.data.end
  {
    SpansOverlap(a.data.start, a.data.end, b.data.start, b.data.end)
  }

  lemma OverlapSymmetric(a: Event, b: Event)
    ensures IsOverlapping(a, b) == IsOverlapping(b, a)
  {
  }

  /** Back-to-back events (one ends exactly when the other starts) never overlap. */
  lemma BackToBackNoOverlap(a: Event, b: Event)
    requires a.data.end == b.data.start
    ensures !IsOverlapping(a, b) && !IsOverlapping(b, a)
  {
  }

  lemma DisjointNoOverlap(a: Event, b: Event)
    requires a.data.end <= b.data.start || b.data.end <= a.data.start
    ensures !IsOverlapping(a, b)
  {
  }

  /** A non-empty event overlaps itself; a zero-length one does not. */
  lemma SelfOverlap(a: Event)
    ensures IsOverlapping(a, a) <==> a.data.start < a.data.end
  {
  }

  /** A zero-length event overlaps exactly the events that strictly straddle its instant. */
  lemma PointOverlap(a: Event, b: Event)
    requires a.data.start == a.data.end
    ensures IsOverlapping(a, b) <==> b.data.start < a.data.start < b.data.end
  {
  }

  /** A non-empty event overlaps every event whose span contains its own. */
  lemma ContainedOverlaps(a: Event, b: Event)
    requires a.data.start < a.data.end
    requires b.data.start <= a.data.start && a.data.end <= b.data.end
    ensures IsOverlapping(a, b)
  {
  }
}

=== FILE: month_view.dfy ===
/** The month grid cell logic of components/CalendarView.tsx: same-day test,
    priority colours, the per-day event list, and drag-and-drop rescheduling.
    A grid cell's day is a civil date; its midnight and last millisecond are
    `DayStart` and `DayEnd`. */
module MonthView {
  import opened Wrappers
  import opened Types
  import opened Seqs
  import opened CivilTime
  import opened Interval
  import opened EventOrder

  /** `isSameDay`: same year, month and day of the month. */
  predicate IsSameDay(t1: int, t2: int)
    ensures IsSameDay(t1, t2) ==> -MsPerDay < t1 - t2 < MsPerDay
  {
    var d1 := DateOf(t1);
    var d2 := DateOf(t2);
    InstantDecomposes(t1);
    InstantDecomposes(t2);
    d1.year == d2.year && d1.month == d2.month && d1.day == d2.day
  }

  /** Two instants are on the same day exactly when they fall in the same
      86 400 000 ms block of the local time line. */
  lemma {:induction false} SameDayIffSameBlock(t1: int, t2: int)
    ensures IsSameDay(t1, t2) <==> t1 / MsPerDay == t2 / MsPerDay
  {
    InstantDecomposes(t1);
    InstantDecomposes(t2);
    DayNumberInjective(DateOf(t1), DateOf(t2));
  }

  /** `getPriorityColor` of the month view: a total mapping in which any value
      other than High, Medium and Low is gray. */
  function PriorityColor(p: Priority): (c: string)
    ensures c == "bg-red-500" <==> p == High
    ensures c == "bg-yellow-500" <==> p == Medium
    ensures c == "bg-[var(--primary-500)]" <==> p == Low
    ensures c == "bg-gray-400" <==> p == NoPriority || p.Other?
  {
    match p
    case High => "bg-red-500"
    case Medium => "bg-yellow-500"
    case Low => "bg-[var(--primary-500)]"
    case _ => "bg-gray-400"
  }

  /** The per-day filter: the event starts no later than the day's last
      millisecond and ends after its midnight. */
  predicate ListedOnDay(e: Event, day: CivilDate)
    requires 0 <= day.month < 12
    ensures ListedOnDay(e, day) <==> e.data.start < DayStart(day) + MsPerDay && DayStart(day) < e.data.end
  {
    e.data.start <= DayEnd(day) && e.data.end > DayStart(day)
  }

  /** Being listed on a day is the overlap test against the day's half-open
      span [midnight, next midnight). */
  lemma ListedIffOverlapsDay(e: Event, day: CivilDate)
    requires 0 <= day.month < 12
    ensures ListedOnDay(e, day) <==>
              SpansOverlap(e.data.start, e.data.end, DayStart(day), DayStart(day) + MsPerDay)
  {
  }

  /** A zero-length event exactly at a midnight is listed on no day. */
  lemma {:induction false} MidnightPointListedNowhere(e: Event, day: CivilDate)
    requires 0 <= day.month < 12
    requires e.data.start == e.data.end && TimeOfDay(e.data.start) == 0
    ensures !ListedOnDay(e, day)
  {
    var k := e.data.start / MsPerDay;
    assert e.data.start == k * MsPerDay;
    NoMidnightStrictlyInside(DayNumber(day), k);
  }

  /** No midnight lies strictly inside a day. */
  lemma NoMidnightStrictlyInside(n: int, k: int)
    ensures !(n * MsPerDay < k * MsPerDay < n * MsPerDay + MsPerDay)
  {
    if n < k {
      assert n * MsPerDay + MsPerDay <= k * MsPerDay;
    }
  }

  /** A non-empty event is listed on the day it starts. */
  lemma ListedOnStartDay(e: Event)
    requires e.data.start < e.data.end
    ensures ListedOnDay(e, DateOf(e.data.start))
  {
    DateOfInstant(e.data.start, DateOf(e.data.start));
  }

  /** The day cell's list: the events listed on the day, sorted by start. */
  function DailyEvents(events: seq<Event>, day: CivilDate): (r: seq<Event>)
    requires 0 <= day.month < 12
    ensures SortedByStart(r)
    ensures forall e :: e in r <==> e in events && ListedOnDay(e, day)
    ensures forall e :: multiset(r)[e] == if ListedOnDay(e, day) then multiset(events)[e] else 0
  {
    var listed := (e: Event) => ListedOnDay(e, day);
    FilterMultiset(events, listed);
    var r := SortByStart(Filter(events, listed));
    assert forall e :: e in r <==> e in multiset(r);
    r
  }

  // ---------------------------------------------------------------------------
  // Drag and drop

  /** First event with the given id (`events.find(ev => ev.id === id)`). */
  function FindById(events: seq<Event>, id: string): (r: Option<Event>)
    ensures r.None? <==> !HasId(events, id)
    ensures r.Some? ==> r.value.id == id && r.value in events
    ensures r.Some? ==> exists i :: 0 <= i < |events| && events[i] == r.value
                                    && forall j :: 0 <= j < i ==> events[j].id != id
    decreases |events|
  {
    if |events| == 0 then None
    else if events[0].id == id then Some(events[0])
    else
      var r := FindById(events[1..], id);
      assert forall i :: 1 <= i < |events| ==> events[i] == events[1..][i - 1];
      r
  }

  predicate StartsWith(s: string, prefix: string)
  {
    |prefix| <= |s| && s[..|prefix|] == prefix
  }

  const EventPrefix: string := "event-"
  const TaskPrefix: string := "task-"

  /** The payload `handleDragStart` puts on the drag: `event-<id>`. */
  function DragData(e: Event): (data: string)
    ensures StartsWith(data, EventPrefix) && data[|EventPrefix|..] == e.id
  {
    EventPrefix + e.id
  }

  /** Nine o'clock, the time a dropped task is scheduled at. */
  const TaskDropTime: int := 9 * MsPerHour

  /** What a drop asks the app to do. */
  datatype DropAction =
    | NoAction
    | UpdateEvent(event: Event)
    | ScheduleTask(taskId: string, at: int)

  /** `handleDrop` on the cell of `day`: an `event-` payload moves that event
      to `day` at its own time of day, keeping its duration; a `task-`
      payload schedules the task at 09:00 of `day`; anything else, or an
      unknown event id, does nothing. */
  function HandleDrop(events: seq<Event>, data: string, day: CivilDate): (r: DropAction)
    requires ValidDate(day)
    ensures r.UpdateEvent? <==> StartsWith(data, EventPrefix) && HasId(events, data[|EventPrefix|..])
    ensures r.ScheduleTask? <==> !StartsWith(data, EventPrefix) && StartsWith(data, TaskPrefix)
    ensures r.ScheduleTask? ==> r.taskId == data[|TaskPrefix|..]
  {
    if StartsWith(data, EventPrefix) then
      match FindById(events, data[|EventPrefix|..])
      case None => NoAction
      case Some(ev) =>
        var newStart := DayStart(day) + TimeOfDay(ev.data.start);
        var duration := ev.data.end - ev.data.start;
        UpdateEvent(ev.(data := ev.data.(start := newStart, end := newStart + duration)))
    else if StartsWith(data, TaskPrefix) then
      ScheduleTask(data[|TaskPrefix|..], DayStart(day) + TaskDropTime)
    else NoAction
  }

  /** Dropping a dragged event moves the first event with its id onto the
      target day: same id and details, same time of day, same duration. */
  lemma {:induction false} DropMovesEvent(events: seq<Event>, e: Event, day: CivilDate)
    requires ValidDate(day)
    requires FindById(events, e.id) == Some(e)
    ensures var r := HandleDrop(events, DragData(e), day);
            && r.UpdateEvent?
            && r.event.id == e.id
            && r.event.data == e.data.(start := r.event.data.start, end := r.event.data.end)
            && DateOf(r.event.data.start) == day
            && TimeOfDay(r.event.data.start) == TimeOfDay(e.data.start)
            && r.event.data.end - r.event.data.start == e.data.end - e.data.start
  {
    var data := DragData(e);
    assert data[|EventPrefix|..] == e.id;
    InstantOnDay(day, TimeOfDay(e.data.start));
  }

  /** Dropping an event id that is not in the collection does nothing. */
  lemma DropUnknownEventIsNoAction(events: seq<Event>, id: string, day: CivilDate)
    requires ValidDate(day)
    requires !HasId(events, id)
    ensures HandleDrop(events, EventPrefix + id, day) == NoAction
  {
    assert (EventPrefix + id)[|EventPrefix|..] == id;
  }

  /** A dropped task lands at 09:00:00.000 of the target day. */
  lemma DropTaskAtNine(events: seq<Event>, taskId: string, day: CivilDate)
    requires ValidDate(day)
    ensures var r := HandleDrop(events, TaskPrefix + taskId, day);
            && r.ScheduleTask? && r.taskId == taskId
            && DateOf(r.at) == day
            && TimeOfDay(r.at) == 9 * MsPerHour
  {
    var data := TaskPrefix + taskId;
    assert !StartsWith(data, EventPrefix) by {
      if |EventPrefix| <= |data| {
        assert data[..|EventPrefix|][0] == 't';
      }
    }
    assert data[|TaskPrefix|..] == taskId;
    InstantOnDay(day, TaskDropTime);
  }
}

=== FILE: proximity_alerter.dfy ===
/** One cycle of the smart-alert evaluator (`checkSmartAlerts` in
    hooks/useProximityAlerter.ts), as a pure step:
    (events, now, window, threshold, last position, position answer)
      -> (events reported, new last position).

    The timer, the geolocation API and `haversineDistance` are outside the
    model: the position answer and the distance function are parameters. */
module ProximityAlerter {
  import opened Wrappers
  import opened Types
  import opened Seqs
  import CivilTime
  import EventStore

  datatype Coords = Coords(latitude: real, longitude: real)

  /** What `getCurrentPosition` delivered for this cycle. */
  datatype PositionResult = PositionFix(coords: Coords) | PositionError(message: string)

  /** Events reported to `onPotentialLate` in call order, the last known
      position after the cycle, and whether a position was requested. */
  datatype CycleResult = CycleResult(fired: seq<Event>, lastPosition: Option<Coords>, positionRequested: bool)

  /** An event is alertable when it is High or Medium priority, not yet
      notified, opted in, and starts in the window (now, now + window]. */
  predicate Alertable(e: Event, now: int, windowMinutes: int)
    ensures Alertable(e, now, windowMinutes) ==> windowMinutes > 0 && e.data.priority != Low
  {
    && (e.data.priority == High || e.data.priority == Medium)
    && !IsSet(e.data.autoNotified)
    && IsSet(e.data.proximityAlertEnabled)
    && now < e.data.start <= now + windowMinutes * CivilTime.MsPerMinute
  }

  function AlertableEvents(events: seq<Event>, now: int, windowMinutes: int): (r: seq<Event>)
    ensures forall e :: e in r <==> e in events && Alertable(e, now, windowMinutes)
  {
    Filter(events, (e: Event) => Alertable(e, now, windowMinutes))
  }

  /** Alertable events with a location: gated on the user not moving. */
  function ProximityEvents(alertable: seq<Event>): (r: seq<Event>)
    ensures forall e :: e in r <==> e in alertable && Present(e.data.location)
  {
    Filter(alertable, (e: Event) => Present(e.data.location))
  }

  /** Alertable events without a location (absent or empty): plain reminders. */
  function ReminderEvents(alertable: seq<Event>): (r: seq<Event>)
    ensures forall e :: e in r <==> e in alertable && !Present(e.data.location)
  {
    Filter(alertable, (e: Event) => !Present(e.data.location))
  }

  /** Every alertable event lands in exactly one of the two groups, with its
      multiplicity, according to whether it has a location. */
  lemma PartitionIsExact(alertable: seq<Event>)
    ensures forall e :: multiset(ProximityEvents(alertable))[e] + multiset(ReminderEvents(alertable))[e]
                        == multiset(alertable)[e]
    ensures forall e :: e in ProximityEvents(alertable) ==> Present(e.data.location)
    ensures forall e :: e in ReminderEvents(alertable) ==> !Present(e.data.location)
  {
    FilterMultiset(alertable, (e: Event) => Present(e.data.location));
    FilterMultiset(alertable, (e: Event) => !Present(e.data.location));
  }

  /** One run of `checkSmartAlerts` (nothing runs when the feature is off).
      Reminders are reported first; proximity events follow only when a
      position arrived, a previous position exists, and the distance moved is
      strictly below the threshold. A received position always becomes the last
      known one; an error keeps the old one. */
  function CheckSmartAlerts(
    enabled: bool, events: seq<Event>, now: int, windowMinutes: int, movementThresholdKm: real,
    distance: (Coords, Coords) -> real, last: Option<Coords>, position: PositionResult): (r: CycleResult)
    ensures forall e :: e in r.fired ==> e in events && Alertable(e, now, windowMinutes)
    ensures forall e :: e in r.fired ==> !IsSet(e.data.autoNotified)
    ensures enabled ==> forall e :: e in events && Alertable(e, now, windowMinutes) && !Present(e.data.location)
                                   ==> e in r.fired
    ensures !enabled ==> r == CycleResult([], last, false)
    ensures r.positionRequested <==>
              enabled && exists e :: e in events && Alertable(e, now, windowMinutes) && Present(e.data.location)
    ensures !r.positionRequested ==> r.lastPosition == last
    ensures r.positionRequested && position.PositionError? ==> r.lastPosition == last
    ensures r.positionRequested && position.PositionFix? ==> r.lastPosition == Some(position.coords)
    ensures last.None? ==> forall e :: e in r.fired ==> !Present(e.data.location)
    ensures (exists e :: e in r.fired && Present(e.data.location)) <==>
              r.positionRequested && position.PositionFix? && last.Some?
              && distance(last.value, position.coords) < movementThresholdKm
    ensures enabled && position.PositionFix? && last.Some? && distance(last.value, position.coords) < movementThresholdKm
            ==> r.fired == ReminderEvents(AlertableEvents(events, now, windowMinutes))
                           + ProximityEvents(AlertableEvents(events, now, windowMinutes))
    ensures enabled && position.PositionFix? && last.Some? && distance(last.value, position.coords) < movementThresholdKm
            ==> multiset(r.fired) == multiset(AlertableEvents(events, now, windowMinutes))
    ensures enabled && !(position.PositionFix? && last.Some? && distance(last.value, position.coords) < movementThresholdKm)
            ==> r.fired == ReminderEvents(AlertableEvents(events, now, windowMinutes))
  {
    if !enabled then CycleResult([], last, false)
    else
      var alertable := AlertableEvents(events, now, windowMinutes);
      var proximity := ProximityEvents(alertable);
      var reminders := ReminderEvents(alertable);
      PartitionIsExact(alertable);
      assert multiset(reminders + proximity) == multiset(alertable);
      assert |proximity| > 0 ==> proximity[0] in proximity;
      if |proximity| == 0 then CycleResult(reminders, last, false)
      else
        match position
        case PositionError(_) => CycleResult(reminders, last, true)
        case PositionFix(current) =>
          var stationary := last.Some? && distance(last.value, current) < movementThresholdKm;
          if stationary then
            assert proximity[0] in reminders + proximity;
            CycleResult(reminders + proximity, Some(current), true)
          else CycleResult(reminders, Some(current), true)
  }

  /** Once `handlePotentialLate` has marked an event, no later cycle reports it
      again, whatever the clock, window or position. */
  lemma NotifiedEventNeverRefires(
    events: seq<Event>, id: string, enabled: bool, now: int, windowMinutes: int, movementThresholdKm: real,
    distance: (Coords, Coords) -> real, last: Option<Coords>, position: PositionResult)
    ensures forall e :: e in CheckSmartAlerts(enabled, EventStore.MarkAutoNotified(events, id), now, windowMinutes,
                                              movementThresholdKm, distance, last, position).fired
                        ==> e.id != id
  {
    var marked := EventStore.MarkAutoNotified(events, id);
    forall e | e in marked && e.id == id
      ensures IsSet(e.data.autoNotified)
    {
      var i :| 0 <= i < |marked| && marked[i] == e;
    }
  }

  /** Cold start: with no previous position nothing location-gated fires, and a
      received position is recorded for the next cycle. */
  lemma ColdStart(
    events: seq<Event>, now: int, windowMinutes: int, movementThresholdKm: real,
    distance: (Coords, Coords) -> real, c: Coords)
    ensures var r := CheckSmartAlerts(true, events, now, windowMinutes, movementThresholdKm, distance, None, PositionFix(c));
            && r.fired == ReminderEvents(AlertableEvents(events, now, windowMinutes))
            && (r.positionRequested ==> r.lastPosition == Some(c))
  {
  }
}

=== FILE: seqs.dfy ===
/** Order-preserving filtering, the model of `Array.prototype.filter`. */
module Seqs {

  /** The elements of `s` that satisfy `p`, in their original order. */
  function Filter<T(!new)>(s: seq<T>, p: T -> bool): (r: seq<T>)
    ensures |r| <= |s|
    ensures forall x :: x in r <==> x in s && p(x)
    decreases |s|
  {
    if |s| == 0 then []
    else (if p(s[0]) then [s[0]] else []) + Filter(s[1..], p)
  }

  /** Filtering a list with a known head. */
  lemma FilterCons<T(!new)>(x: T, s: seq<T>, p: T -> bool)
    ensures Filter([x] + s, p) == (if p(x) then [x] else []) + Filter(s, p)
  {
    assert ([x] + s)[1..] == s;
  }

  /** Filtering keeps every occurrence of a satisfying element and drops every
      occurrence of the others: exactly the satisfying part of `s`, counted with
      multiplicity. */
  lemma {:induction false} FilterMultiset<T(!new)>(s: seq<T>, p: T -> bool)
    ensures forall x :: multiset(Filter(s, p))[x] == if p(x) then multiset(s)[x] else 0
    decreases |s|
  {
    if |s| > 0 {
      FilterMultiset(s[1..], p);
      assert s == [s[0]] + s[1..];
      assert multiset(s) == multiset{s[0]} + multiset(s[1..]);
    }
  }

  /** A predicate every element satisfies filters nothing out. */
  lemma {:induction false} FilterAll<T(!new)>(s: seq<T>, p: T -> bool)
    requires forall i :: 0 <= i < |s| ==> p(s[i])
    ensures Filter(s, p) == s
    decreases |s|
  {
    if |s| > 0 {
      FilterAll(s[1..], p);
    }
  }

  /** Filtering distributes over concatenation, so relative order is kept. */
  lemma {:induction false} FilterAppend<T(!new)>(a: seq<T>, b: seq<T>, p: T -> bool)
    ensures Filter(a + b, p) == Filter(a, p) + Filter(b, p)
    decreases |a|
  {
    if |a| == 0 {
      assert a + b == b;
    } else {
      assert (a + b)[1..] == a[1..] + b;
      FilterAppend(a[1..], b, p);
    }
  }

  /** Filtering twice with the same predicate changes nothing the second time. */
  lemma {:induction false} FilterIdempotent<T(!new)>(s: seq<T>, p: T -> bool)
    ensures Filter(Filter(s, p), p) == Filter(s, p)
    decreases |s|
  {
    if |s| > 0 {
      var rest := Filter(s[1..], p);
      FilterIdempotent(s[1..], p);
      if p(s[0]) {
        var t := [s[0]] + rest;
        assert Filter(s, p) == t;
        assert t[0] == s[0] && t[1..] == rest;
        assert Filter(t, p) == [s[0]] + Filter(rest, p);
      } else {
        assert Filter(s, p) == rest;
      }
    }
  }
}

=== FILE: sidebar.dfy ===
/** The "Upcoming" list of components/Sidebar.tsx: the next five events that
    start after now, earliest first. */
module Sidebar {
  import opened Types
  import opened Seqs
  import opened EventOrder

  /** How many upcoming events the sidebar shows. */
  const UpcomingLimit: nat := 5

  /** Events that start strictly after `now`. */
  function FutureEvents(events: seq<Event>, now: int): (r: seq<Event>)
    ensures forall e :: e in r <==> e in events && e.data.start > now
    ensures forall e :: multiset(r)[e] == if e.data.start > now then multiset(events)[e] else 0
  {
    var future := (e: Event) => e.data.start > now;
    FilterMultiset(events, future);
    Filter(events, future)
  }

  /** `upcomingEvents`: future events, sorted by start, first five. */
  function Upcoming(events: seq<Event>, now: int): (r: seq<Event>)
    ensures |r| <= UpcomingLimit
    ensures SortedByStart(r)
    ensures forall e :: e in r ==> e in events && e.data.start > now
    ensures |r| == if |FutureEvents(events, now)| < UpcomingLimit then |FutureEvents(events, now)| else UpcomingLimit
    ensures multiset(r) <= multiset(events)
  {
    var future := FutureEvents(events, now);
    var n := if |future| < UpcomingLimit then |future| else UpcomingLimit;
    SortedFront(future, n);
    FutureSubMultiset(events, now);
    SortByStart(future)[..n]
  }

  /** The first `n` events of the sorted sequence are sorted and are drawn
      from `s` without extra occurrences. */
  lemma SortedFront(s: seq<Event>, n: nat)
    requires n <= |s|
    ensures var f := SortByStart(s)[..n];
            && SortedByStart(f)
            && (forall e :: e in f ==> e in s)
            && multiset(f) <= multiset(s)
  {
    var sorted := SortByStart(s);
    SortedPrefix(sorted, n);
    SortKeepsMembers(s);
    PrefixSubMultiset(sorted, n);
  }

  /** The future events are drawn from the collection without extra occurrences. */
  lemma FutureSubMultiset(events: seq<Event>, now: int)
    ensures multiset(FutureEvents(events, now)) <= multiset(events)
  {
  }

  /** A prefix holds no occurrence its sequence lacks. */
  lemma PrefixSubMultiset(s: seq<Event>, n: nat)
    requires n <= |s|
    ensures multiset(s[..n]) <= multiset(s)
  {
    assert s == s[..n] + s[n..];
  }

  lemma SortedPrefix(s: seq<Event>, n: nat)
    requires SortedByStart(s) && n <= |s|
    ensures SortedByStart(s[..n])
    ensures forall e :: e in s[..n] ==> e in s
  {
  }

  lemma SortKeepsMembers(s: seq<Event>)
    ensures forall e :: e in SortByStart(s) <==> e in s
  {
    var r := SortByStart(s);
    forall e
      ensures e in r <==> e in s
    {
      assert e in r <==> e in multiset(r);
      assert e in s <==> e in multiset(s);
    }
  }

  /** The list is the front of the future events in start order: no event
      is repeated or dropped ahead of a shown one. */
  lemma UpcomingIsSortedFront(events: seq<Event>, now: int)
    ensures var r := Upcoming(events, now);
            r == SortByStart(FutureEvents(events, now))[..|r|]
  {
  }

  /** The list holds the earliest future events: any future event left out
      (some occurrence of it not shown) starts no earlier than every shown one. */
  lemma {:induction false} UpcomingAreEarliest(events: seq<Event>, now: int)
    ensures var r := Upcoming(events, now);
            forall x, f :: x in r && f in events && f.data.start > now && multiset(r)[f] < multiset(events)[f]
                           ==> x.data.start <= f.data.start
  {
    var sorted := SortByStart(FutureEvents(events, now));
    var r := Upcoming(events, now);
    assert r == sorted[..|r|];
    forall x, f | x in r && f in events && f.data.start > now && multiset(r)[f] < multiset(events)[f]
      ensures x.data.start <= f.data.start
    {
      assert multiset(sorted)[f] == multiset(events)[f];
      PrefixPrecedesRest(sorted, |r|, x, f);
    }
  }

  /** In a sorted sequence, an element of a prefix starts no later than any
      element with an occurrence past that prefix. */
  lemma PrefixPrecedesRest(sorted: seq<Event>, n: nat, x: Event, f: Event)
    requires SortedByStart(sorted) && n <= |sorted|
    requires x in sorted[..n]
    requires multiset(sorted[..n])[f] < multiset(sorted)[f]
    ensures x.data.start <= f.data.start
  {
    assert sorted == sorted[..n] + sorted[n..];
    assert multiset(sorted) == multiset(sorted[..n]) + multiset(sorted[n..]);
    assert f in multiset(sorted[n..]);
    var j :| n <= j < |sorted| && sorted[j] == f by {
      assert f in sorted[n..];
    }
    var i :| 0 <= i < n && sorted[i] == x;
  }

  /** The "No upcoming events." message shows exactly when nothing starts
      after now. */
  lemma EmptyIffNoFutureEvents(events: seq<Event>, now: int)
    ensures |Upcoming(events, now)| == 0 <==> forall e :: e in events ==> e.data.start <= now
  {
    var future := FutureEvents(events, now);
    if |future| > 0 {
      assert future[0] in future;
    }
  }
}

=== FILE: text.dfy ===
/** The string operations the views and forms rely on: decimal rendering of
    small numbers (template literals), `String.prototype.trim`, `split` on a
    single character and `join`. */
module Text {

  // ---------------------------------------------------------------------------
  // Decimal digits

  predicate IsDigit(c: char)
  {
    '0' <= c <= '9'
  }

  function DigitChar(d: int): (c: char)
    requires 0 <= d < 10
    ensures IsDigit(c)
  {
    ('0' as int + d) as char
  }

  function DigitValue(c: char): (d: int)
    requires IsDigit(c)
    ensures 0 <= d < 10
  {
    c as int - '0' as int
  }

  /** Decimal rendering of a natural number, as `${n}` produces it. */
  function NatToString(n: nat): (s: string)
    ensures |s| >= 1
    ensures forall i :: 0 <= i < |s| ==> IsDigit(s[i])
    decreases n
  {
    if n < 10 then [DigitChar(n)] else NatToString(n / 10) + [DigitChar(n % 10)]
  }

  /** The value of a string of decimal digits. */
  function ParseDigits(s: string): nat
    requires forall i :: 0 <= i < |s| ==> IsDigit(s[i])
    decreases |s|
  {
    if |s| == 0 then 0 else ParseDigits(s[..|s| - 1]) * 10 + DigitValue(s[|s| - 1])
  }

  /** Reading back a rendered number gives the number. */
  lemma {:induction false} ParseNatToString(n: nat)
    ensures ParseDigits(NatToString(n)) == n
    decreases n
  {
    var s := NatToString(n);
    if n >= 10 {
      ParseNatToString(n / 10);
      assert s[..|s| - 1] == NatToString(n / 10);
    }
  }

  /** Different numbers render differently. */
  lemma NatToStringInjective(a: nat, b: nat)
    ensures NatToString(a) == NatToString(b) <==> a == b
  {
    ParseNatToString(a);
    ParseNatToString(b);
  }

  // ---------------------------------------------------------------------------
  // Whitespace and trim

  /** The characters `trim` removes: the ECMAScript WhiteSpace and
      LineTerminator code points (tab, vertical tab, form feed, space,
      no-break space, byte-order mark, the Unicode space separators, line
      feed, carriage return, line and paragraph separators). */
  predicate IsSpace(c: char)
  {
    || c == '\t' || c == '\n' || c == '\U{000B}' || c == '\U{000C}' || c == '\r' || c == ' '
    || c == '\U{00A0}' || c == '\U{1680}' || ('\U{2000}' <= c <= '\U{200A}')
    || c == '\U{2028}' || c == '\U{2029}' || c == '\U{202F}' || c == '\U{205F}'
    || c == '\U{3000}' || c == '\U{FEFF}'
  }

  /** No whitespace at either end. */
  predicate IsTrimmed(s: string)
  {
    |s| == 0 || (!IsSpace(s[0]) && !IsSpace(s[|s| - 1]))
  }

  /** The first index at or after `i` that holds no whitespace (`|s|` if
      there is none). */
  function SkipSpaces(s: string, i: nat): (k: nat)
    requires i <= |s|
    ensures i <= k <= |s|
    ensures forall j :: i <= j < k ==> IsSpace(s[j])
    ensures k < |s| ==> !IsSpace(s[k])
    decreases |s| - i
  {
    if i < |s| && IsSpace(s[i]) then SkipSpaces(s, i + 1) else i
  }

  /** The end of `s[lo..hi]` once its trailing whitespace is dropped. */
  function BackSpaces(s: string, lo: nat, hi: nat): (k: nat)
    requires lo <= hi <= |s|
    ensures lo <= k <= hi
    ensures forall j :: k <= j < hi ==> IsSpace(s[j])
    ensures k > lo ==> !IsSpace(s[k - 1])
    decreases hi - lo
  {
    if lo < hi && IsSpace(s[hi - 1]) then BackSpaces(s, lo, hi - 1) else hi
  }

  /** Number of whitespace characters `trim` removes from the front. */
  function LeadingSpaces(s: string): nat
  {
    SkipSpaces(s, 0)
  }

  /** `String.prototype.trim`: the infix left once the whitespace at both
      ends is stripped; everything outside it is whitespace. */
  function Trim(s: string): (r: string)
    ensures IsTrimmed(r)
    ensures LeadingSpaces(s) + |r| <= |s|
    ensures r == s[LeadingSpaces(s)..LeadingSpaces(s) + |r|]
    ensures forall k :: 0 <= k < LeadingSpaces(s) ==> IsSpace(s[k])
    ensures forall k :: LeadingSpaces(s) + |r| <= k < |s| ==> IsSpace(s[k])
  {
    var lo := SkipSpaces(s, 0);
    var hi := BackSpaces(s, lo, |s|);
    forall k | hi <= k < |s|
      ensures IsSpace(s[k])
    {
    }
    s[lo..hi]
  }

  /** A string with no surrounding whitespace is its own trim. */
  lemma TrimTrimmed(s: string)
    requires IsTrimmed(s)
    ensures Trim(s) == s
  {
  }

  /** A leading character shifts both scans by one. */
  lemma {:induction false} SkipSpacesShift(c: char, s: string, i: nat)
    requires i <= |s|
    ensures SkipSpaces([c] + s, i + 1) == SkipSpaces(s, i) + 1
    decreases |s| - i
  {
    assert i < |s| ==> ([c] + s)[i + 1] == s[i];
    if i < |s| && IsSpace(s[i]) {
      SkipSpacesShift(c, s, i + 1);
    }
  }

  lemma {:induction false} BackSpacesShift(c: char, s: string, lo: nat, hi: nat)
    requires lo <= hi <= |s|
    ensures BackSpaces([c] + s, lo + 1, hi + 1) == BackSpaces(s, lo, hi) + 1
    decreases hi - lo
  {
    assert lo < hi ==> ([c] + s)[hi] == s[hi - 1];
    if lo < hi && IsSpace(s[hi - 1]) {
      BackSpacesShift(c, s, lo, hi - 1);
    }
  }

  /** Leading whitespace makes no difference to the trim. */
  lemma TrimAfterSpace(c: char, s: string)
    requires IsSpace(c)
    ensures Trim([c] + s) == Trim(s)
  {
    var cs := [c] + s;
    var lo := SkipSpaces(s, 0);
    SkipSpacesShift(c, s, 0);
    assert SkipSpaces(cs, 0) == SkipSpaces(cs, 1);
    BackSpacesShift(c, s, lo, |s|);
    var hi := BackSpaces(s, lo, |s|);
    assert |cs| == |s| + 1;
    TrimIsSlice(cs, lo + 1, hi + 1);
    TrimIsSlice(s, lo, hi);
    ConsSlice(c, s, lo, hi);
  }

  lemma ConsSlice(c: char, s: string, lo: nat, hi: nat)
    requires lo <= hi <= |s|
    ensures ([c] + s)[lo + 1..hi + 1] == s[lo..hi]
  {
    assert forall k :: lo <= k < hi ==> ([c] + s)[k + 1] == s[k];
  }

  lemma TrimIsSlice(s: string, lo: nat, hi: nat)
    requires lo == SkipSpaces(s, 0) && hi == BackSpaces(s, lo, |s|)
    ensures Trim(s) == s[lo..hi]
  {
  }

  /** Trimming is idempotent. */
  lemma TrimIdempotent(s: string)
    ensures Trim(Trim(s)) == Trim(s)
  {
    TrimTrimmed(Trim(s));
  }

  // ---------------------------------------------------------------------------
  // split and join

  /** `s.split(c)` for a one-character separator: the pieces between
      separators, including empty ones; never an empty list. */
  function Split(s: string, c: char): (r: seq<string>)
    ensures |r| >= 1
    ensures forall i :: 0 <= i < |r| ==> c !in r[i]
    decreases |s|
  {
    if |s| == 0 then [""]
    else
      var rest := Split(s[1..], c);
      if s[0] == c then [""] + rest
      else [[s[0]] + rest[0]] + rest[1..]
  }

  /** `parts.join(sep)`. */
  function Join(parts: seq<string>, sep: string): string
    decreases |parts|
  {
    if |parts| == 0 then ""
    else if |parts| == 1 then parts[0]
    else parts[0] + sep + Join(parts[1..], sep)
  }

  /** Splitting and re-joining with the same character gives back the text. */
  lemma {:induction false} SplitJoin(s: string, c: char)
    ensures Join(Split(s, c), [c]) == s
    decreases |s|
  {
    if |s| > 0 {
      var rest := Split(s[1..], c);
      SplitJoin(s[1..], c);
      if s[0] == c {
        assert Split(s, c) == [""] + rest;
        assert s == [c] + s[1..];
      } else {
        var r := Split(s, c);
        assert r[1..] == rest[1..];
        if |rest| == 1 {
          assert s == [s[0]] + rest[0];
        } else {
          assert Join(rest, [c]) == rest[0] + [c] + Join(rest[1..], [c]);
          assert s == [s[0]] + s[1..];
        }
      }
    }
  }

  /** A piece without the separator, followed by the separator, splits off
      as one piece. */
  lemma {:induction false} SplitAfterPiece(a: string, c: char, b: string)
    requires c !in a
    ensures Split(a + [c] + b, c) == [a] + Split(b, c)
    decreases |a|
  {
    if |a| == 0 {
      assert a + [c] + b == [c] + b;
      assert ([c] + b)[1..] == b;
    } else {
      SplitAfterPiece(a[1..], c, b);
      assert (a + [c] + b)[1..] == a[1..] + [c] + b;
      assert [a[0]] + a[1..] == a;
    }
  }

  /** A string without the separator is one piece. */
  lemma {:induction false} SplitWithoutSeparator(a: string, c: char)
    requires c !in a
    ensures Split(a, c) == [a]
    decreases |a|
  {
    if |a| > 0 {
      SplitWithoutSeparator(a[1..], c);
      assert [a[0]] + a[1..] == a;
    }
  }

  /** Joining pieces free of the separator character and splitting again
      gives back the pieces. */
  lemma {:induction false} JoinSplit(parts: seq<string>, c: char)
    requires |parts| >= 1
    requires forall i :: 0 <= i < |parts| ==> c !in parts[i]
    ensures Split(Join(parts, [c]), c) == parts
    decreases |parts|
  {
    if |parts| == 1 {
      SplitWithoutSeparator(parts[0], c);
    } else {
      JoinSplit(parts[1..], c);
      SplitAfterPiece(parts[0], c, Join(parts[1..], [c]));
      assert parts == [parts[0]] + parts[1..];
    }
  }
}

=== FILE: types.dfy ===
/** The calendar's data model (types.ts). */
module Types {
  import opened Wrappers

  /** A priority label that is none of the four enum values. */
  type UnknownLabel = s: string | s != "High" && s != "Medium" && s != "Low" && s != "None"
    witness "Urgent"

  /** Event priority. The four enum members of types.ts, plus `Other` for a
      string outside the enum: App.tsx stores whatever priority label the AI
      returns through an unchecked `as Priority` cast, so at run time the field
      can hold any string. A label equal to an enum value is that enum member,
      so `Other` only ever holds the remaining strings. */
  datatype Priority = High | Medium | Low | NoPriority | Other(name: UnknownLabel)

  /** The string value a priority has at run time. */
  function Label(p: Priority): (s: string)
    ensures p.Other? <==> (s != "High" && s != "Medium" && s != "Low" && s != "None")
  {
    match p
    case High => "High"
    case Medium => "Medium"
    case Low => "Low"
    case NoPriority => "None"
    case Other(name) => name
  }

  /** The priority a string denotes once cast with `as Priority`: an enum
      member when it spells one, otherwise an unknown label. */
  function PriorityOfLabel(s: string): (p: Priority)
    ensures Label(p) == s
  {
    if s == "High" then High
    else if s == "Medium" then Medium
    else if s == "Low" then Low
    else if s == "None" then NoPriority
    else Other(s)
  }

  /** Labels and priorities are in one-to-one correspondence: reading a
      priority's label back gives the same priority. */
  lemma LabelRoundTrip(p: Priority)
    ensures PriorityOfLabel(Label(p)) == p
  {
  }

  /** Every field of a calendar event except its id (`Omit<CalendarEvent, 'id'>`).
      `start` and `end` are instants in local milliseconds; optional fields are
      Option values, None standing for `undefined`. */
  datatype EventData = EventData(
    title: string,
    start: int,
    end: int,
    description: Option<string>,
    category: string,
    priority: Priority,
    location: Option<string>,
    link: Option<string>,
    contactEmail: Option<string>,
    contactPhone: Option<string>,
    autoNotified: Option<bool>,
    proximityAlertEnabled: Option<bool>)

  datatype Event = Event(id: string, data: EventData)

  /** JavaScript truthiness of an optional string: present and non-empty. */
  predicate Present(s: Option<string>)
  {
    s.Some? && s.value != ""
  }

  /** JavaScript truthiness of an optional boolean. */
  predicate IsSet(b: Option<bool>)
  {
    b == Some(true)
  }

  function Duration(e: Event): int
  {
    e.data.end - e.data.start
  }

  predicate HasId(events: seq<Event>, id: string)
  {
    exists i :: 0 <= i < |events| && events[i].id == id
  }

  /** No two events of the collection share an id. */
  predicate UniqueIds(events: seq<Event>)
  {
    forall i, j :: 0 <= i < |events| && 0 <= j < |events| && i != j ==> events[i].id != events[j].id
  }
}

=== FILE: wrappers.dfy ===
/** Optional values: the model's stand-in for TypeScript's `undefined`/`null`. */
module Wrappers {

  datatype Option<+T> = None | Some(value: T) {

    /** Returns the value in Some, or `default` when None (TypeScript's `x ?? default`). */
    function GetOr(default: T): T
    {
      match this
      case Some(v) => v
      case None => default
    }
  }
}

=== FILE: year_view.dfy ===
/** The year overview of components/YearView.tsx: twelve mini calendars, each
    a grid of leading blanks and the days of its month, with a marker on the
    days on which some event starts. */
module YearView {
  import opened Wrappers
  import opened Types
  import opened Seqs
  import opened CivilTime

  /** `MiniCalendar`'s `days`: `firstDay.getDay()` blanks, then the dates 1 ..
      `lastDay.getDate()` of the month. The dates are built as civil dates;
      `ConstructorDates` shows they are the ones `new Date(year, month, i)`
      and `new Date(year, month + 1, 0)` produce. */
  method MiniCalendarGrid(year: int, month: int) returns (cells: seq<Option<CivilDate>>)
    requires 0 <= month < 12
    ensures var offset := Weekday(CivilDate(year, month, 1));
            && |cells| == offset + DaysInMonth(year, month)
            && (forall i :: 0 <= i < offset ==> cells[i].None?)
            && (forall i :: offset <= i < |cells| ==> cells[i] == Some(CivilDate(year, month, i - offset + 1)))
  {
    var offset := Weekday(CivilDate(year, month, 1));
    var daysInMonth := DaysInMonth(year, month);
    cells := GridCells(year, month, offset, daysInMonth);
  }

  /** The two loops of `generateMonthDays`: `offset` empty cells, then days
      1 to `daysInMonth` of the month. */
  method GridCells(year: int, month: int, offset: nat, daysInMonth: nat) returns (cells: seq<Option<CivilDate>>)
    ensures |cells| == offset + daysInMonth
    ensures forall i :: 0 <= i < offset ==> cells[i].None?
    ensures forall i :: offset <= i < |cells| ==> cells[i] == Some(CivilDate(year, month, i - offset + 1))
  {
    cells := [];
    var i := 0;
    while i < offset
      invariant 0 <= i <= offset
      invariant |cells| == i
      invariant forall k :: 0 <= k < i ==> cells[k].None?
    {
      cells := cells + [None];
      i := i + 1;
    }

    i := 1;
    while i <= daysInMonth
      invariant 1 <= i <= daysInMonth + 1
      invariant |cells| == offset + i - 1
      invariant forall k :: 0 <= k < offset ==> cells[k].None?
      invariant forall k :: offset <= k < |cells| ==> cells[k] == Some(CivilDate(year, month, k - offset + 1))
    {
      cells := cells + [Some(CivilDate(year, month, i))];
      i := i + 1;
    }
  }

  /** The grid's first day, last day and every cell date agree with the
      `Date` constructor calls of the source. */
  lemma ConstructorDates(year: int, month: int, i: int)
    requires 0 <= month < 12 && 1 <= i <= DaysInMonth(year, month)
    ensures MakeDate(year, month, 1) == CivilDate(year, month, 1)
    ensures MakeDate(year, month + 1, 0).day == DaysInMonth(year, month)
    ensures MakeDate(year, month, i) == CivilDate(year, month, i)
  {
    FirstCell(year, month);
    MakeDateDayZero(year, month);
    MakeDateValid(CivilDate(year, month, i));
  }

  lemma FirstCell(year: int, month: int)
    requires 0 <= month < 12
    ensures MakeDate(year, month, 1) == CivilDate(year, month, 1)
  {
    MakeDateValid(CivilDate(year, month, 1));
  }

  /** `eventsInMonth`: the events whose start falls in month `month` of `year`. */
  function EventsInMonth(events: seq<Event>, year: int, month: int): (r: seq<Event>)
    ensures forall e :: e in r <==> e in events && DateOf(e.data.start).year == year && DateOf(e.data.start).month == month
  {
    Filter(events, (e: Event) => DateOf(e.data.start).year == year && DateOf(e.data.start).month == month)
  }

  /** `hasEvent` for a day cell: some event of the month starts on that day. */
  predicate HasEvent(monthEvents: seq<Event>, day: CivilDate)
    ensures HasEvent(monthEvents, day) ==> |monthEvents| > 0
  {
    exists e :: e in monthEvents && DateOf(e.data.start) == day
  }

  /** A day of the month is marked exactly when some event starts on it;
      where events end plays no part. */
  lemma MarkedIffSomeEventStarts(events: seq<Event>, year: int, month: int, d: int)
    ensures HasEvent(EventsInMonth(events, year, month), CivilDate(year, month, d)) <==>
              exists e :: e in events && DateOf(e.data.start) == CivilDate(year, month, d)
  {
  }

  /** One panel of the year view. */
  datatype MonthPanel = MonthPanel(month: int, cells: seq<Option<CivilDate>>, events: seq<Event>)

  /** `YearView`: one mini calendar per month index 0 .. 11, in order. */
  method YearPanels(year: int, events: seq<Event>) returns (panels: seq<MonthPanel>)
    ensures |panels| == 12
    ensures forall m :: 0 <= m < 12 ==>
              && panels[m].month == m
              && panels[m].events == EventsInMonth(events, year, m)
              && |panels[m].cells| == Weekday(CivilDate(year, m, 1)) + DaysInMonth(year, m)
  {
    panels := [];
    var m := 0;
    while m < 12
      invariant 0 <= m <= 12
      invariant |panels| == m
      invariant forall k :: 0 <= k < m ==>
                  && panels[k].month == k
                  && panels[k].events == EventsInMonth(events, year, k)
                  && |panels[k].cells| == Weekday(CivilDate(year, k, 1)) + DaysInMonth(year, k)
    {
      var cells := MiniCalendarGrid(year, m);
      panels := panels + [MonthPanel(m, cells, EventsInMonth(events, year, m))];
      m := m + 1;
    }
  }
}
